=== FILE: README.md ===
# fizz, modelled in Dafny

fizz is an iOS app for short anonymous chats between two strangers. A chat
lasts as long as a "sparkler" (senkō hanabi) burns. This project models the
logic underneath the views:

- **Matchmaking** (`MatchManager`) runs over a Firestore `waiting_queue` and `rooms`:
  - a device queries for another waiting participant;
  - it claims that participant in a transaction that creates the room and deletes the partner's queue entry;
  - otherwise it queues itself and listens for a room that names it.
- **The queue reaper** (`cleanupOldData`) is a scheduled Cloud Function. It deletes queue entries older than ten minutes.
- **The burn engine** (`ChatViewModel`) has two sparklers:
  - their intensity decays and their handles burn down on a 0.1 s timer;
  - a tap revives my sparkler at most once every 5 s;
  - only the newest ten messages are stored;
  - the chat ends when either sparkler goes out.
- **App navigation** (`AppState` with the types in `AppTypes.swift`) covers the screens, the side menu and the history list.
- **Deck editing and chat input** are list rules inside `DeckCreatorView` and `ChatView`.
- **The hex colour parser** `Color(hex:)` is modelled up to its integer (a, r, g, b) tuple.

Every piece of state is an immutable datatype and every operation is a pure
function from state to state. The store is modelled as maps:
`waiting: map<UserId, int>` holds creation times in milliseconds, `rooms` maps a
room id to its sorted `userIds`, and `messages` maps a room id to its log. Each
Firestore request is one atomic step. Each completion handler is a separate
function, and the `Next` value it returns names the request it leaves pending.
Times in the burn engine are seconds as `real`. Clocks, fresh UUIDs and
failures are all parameters of the model.

Modules and files:

| file | module | source |
|---|---|---|
| `options.dfy` | `Options` | Swift optionals |
| `text.dfy` | `Text` | `trimmingCharacters(in:)`, the `sorted()` string order, `joined(separator:)`, decimal interpolation |
| `app_types.dfy` | `AppTypes` | `Models/AppTypes.swift` |
| `app_state.dfy` | `Navigation` | `Models/AppState.swift` |
| `queue_store.dfy` | `QueueStore` | the Firestore collections |
| `match_manager.dfy` | `Matchmaking` | `Managers/MatchManager.swift` |
| `match_properties.dfy` | `MatchProperties` | properties of matchmaking across several steps and devices |
| `reaper.dfy` | `Reaper` | `functions/index.js` |
| `burn_engine.dfy` | `BurnEngine` | `ViewModels/ChatViewModel.swift`, `Models/SparklerState.swift` |
| `chat_view.dfy` | `ChatScreen` | `Views/ChatView.swift` |
| `deck_editor.dfy` | `DeckEditor` | `Views/DeckCreatorView.swift` |
| `hex_color.dfy` | `HexColor` | `Views/Components/SparklesView.swift` |

The repository also holds a web prototype of the app (`Sparkler iOS App UI Design/`). Where the prototype and the Swift app disagree, the model follows the Swift app:

- **End rule.** The prototype ends a chat when both sparklers are out (`Sparkler iOS App UI Design/src/components/ChatPage.tsx:39`). The Swift app ends it as soon as either one is out (`ChatViewModel.swift:54`). `BurnEngine.OneSideOutEndsChat` shows a chat ending while the partner's sparkler still has 45 s of handle.
- **Taps.** The prototype extends the handle by up to 30 s with a 10 s cooldown (`ChatPage.tsx:120-124`). The Swift app only restores 0.2 of intensity, with a 5 s cooldown.

Five behaviours of the code are modelled exactly as written:

- `cancelMatching` removes the room listener but never sets its handle back to `nil`. The guard of `listenForMatch` then refuses to register a new listener. A device that cancelled once can queue again but never hears of a room that names it (`MatchProperties.CancelledListenerBlocksRematch`, `MatchProperties.CancelThenRetryMissesMatch`).
- `listenToRoom` overwrites the message listener's handle without removing the listener it held. The call to `stopListening` in `ChatView.endChat` is commented out, so a second match leaves the first room's listener running, and `stopListening` never reaches it (`MatchProperties.SecondMatchOrphansListener`).
- Cancelling does not reach work already in flight (`MatchProperties.CancelDoesNotStopInFlightWork`).
- The delete in `cancelMatching` and the message write in `sendMessage` have no completion handler, so their failure goes unseen. A cancel whose delete failed leaves the entry claimable (`MatchProperties.FailedCancelLeavesEntryClaimable`).
- The candidate query is `whereField(documentID, isNotEqualTo: me).limit(1)`. Firestore orders that by document id, so the answer is the least waiting id other than the caller's.

## Model

| member | source | states |
|---|---|---|
| Text.Trim | fizz/fizz/Views/DeckCreatorView.swift:298 | `trimmingCharacters(in:)`: the result is one contiguous slice of the input, both of its end characters are kept, and every character outside it is one the set strips |
| Text.TrimWhitespaceEmptyIffBlank | fizz/fizz/Views/ChatView.swift:279 | trimming whitespace leaves nothing exactly when every character is whitespace (tab or a Unicode space separator) |
| Text.TrimSurrounded | fizz/fizz/Views/Components/SparklesView.swift:104 | stripped characters around a string whose ends are kept are all removed, and the string itself is untouched |
| Text.SortedPair | fizz/fizz/Managers/MatchManager.swift:80 | `[a, b].sorted()` has two elements in order and holds exactly `a` and `b` |
| Text.LexLeTotal | fizz/fizz/Managers/MatchManager.swift:80 | any two strings are comparable in the sort order |
| Text.LexLeAntisymmetric | fizz/fizz/Managers/MatchManager.swift:80 | strings each ordered before the other are equal |
| Text.LexLeTransitive | fizz/fizz/Managers/MatchManager.swift:80 | the sort order is transitive |
| Text.SortedPairSymmetric | fizz/fizz/Managers/MatchManager.swift:80 | sorting a pair does not depend on which element comes first |
| Text.NatToString | fizz/fizz/Views/DeckCreatorView.swift:287 | the decimal rendering of a count is a non-empty string of digits with no leading zero |
| Text.NatToStringRoundTrip | fizz/fizz/Views/DeckCreatorView.swift:287 | reading the decimal rendering back gives the number |
| Text.NatToStringInjective | fizz/fizz/Views/DeckCreatorView.swift:287 | different numbers render differently |
| AppTypes.AllScreensComplete | fizz/fizz/Models/AppTypes.swift:10-18 | there are exactly seven screens, all distinct, and every screen is among them |
| AppTypes.AllGenresComplete | fizz/fizz/Models/AppTypes.swift:20-27 | `allCases` has exactly six distinct genres and contains every genre |
| AppTypes.RawValueRoundTrip | fizz/fizz/Models/AppTypes.swift:20-28 | decoding a genre's id gives back the genre, and a string decodes to a genre only when it is that genre's id |
| AppTypes.GenreLabelsDistinct | fizz/fizz/Models/AppTypes.swift:28-39 | distinct genres have distinct ids and distinct Japanese labels |
| Navigation.Navigate | fizz/fizz/Models/AppState.swift:21-24 | shows the requested screen with the menu closed; genre, decks and histories are unchanged |
| Navigation.StartChat | fizz/fizz/Models/AppState.swift:26-28 | shows the waiting screen; the menu, genre, decks and histories are unchanged |
| Navigation.Matched | fizz/fizz/Models/AppState.swift:30-32 | shows the chat screen; the menu, genre, decks and histories are unchanged |
| Navigation.EndChat | fizz/fizz/Models/AppState.swift:34-37 | the history list grows by one, its first entry is the new history and the rest are the old list in order; the end screen shows |
| Navigation.BackToTop | fizz/fizz/Models/AppState.swift:39-42 | shows the top screen and clears the selected genre; decks, menu and histories are unchanged |
| Navigation.OpenMenu | fizz/fizz/Models/AppState.swift:44-47 | the menu is open and nothing else changes |
| Navigation.CloseMenu | fizz/fizz/Models/AppState.swift:49-51 | the menu is closed and nothing else changes |
| Navigation.MenuIdempotent | fizz/fizz/Models/AppState.swift:44-51 | opening twice equals opening once, closing twice equals closing once, and closing after opening equals closing |
| Navigation.NavigationRun | fizz/fizz/Models/AppState.swift:16-51 | no sequence of navigation actions changes `decks` or `activeDeck`, and after any run the history list is the newly recorded histories, newest first, followed by the old list |
| Reaper.Cutoff | functions/index.js:9 | the cutoff lies exactly ten minutes (600000 ms) before now |
| Reaper.CleanupOldData | functions/index.js:12-19 | a rejected query or commit deletes nothing and reports nothing; otherwise every entry created strictly before the cutoff is deleted; every entry at or after it survives with its timestamp, no entry is added, rooms and messages are untouched, and the reported count is the number of deleted entries |
| Reaper.FailedRunIsHarmless | functions/index.js:12-19 | a rejected run followed by a good one at the same instant is the same as the good one alone |
| Reaper.CleanupIdempotent | functions/index.js:12-18 | a second run at the same instant changes nothing and deletes nothing |
| Reaper.EntryAtCutoffSurvives | functions/index.js:13 | an entry created exactly ten minutes ago is kept, because the comparison is strict |
| Matchmaking.RoomIdSymmetric | fizz/fizz/Managers/MatchManager.swift:79-81 | the room's `userIds` and id are the same whichever participant claims; the id is the two sorted ids joined by "_", and the `userIds` hold exactly the two participants |
| Matchmaking.FirstUnderscoreOfJoin | fizz/fizz/Managers/MatchManager.swift:81 | in `a + "_" + b` with no "_" in `a`, the first "_" is the separator |
| Matchmaking.UnderscoreSplit | fizz/fizz/Managers/MatchManager.swift:81 | a joined id splits back into its two parts when the first part has no "_" |
| Matchmaking.RoomIdDeterminesPair | fizz/fizz/Managers/MatchManager.swift:79-81 | for ids without "_", equal room ids mean the same pair of participants |
| Matchmaking.NewRoomWellFormed | fizz/fizz/Managers/MatchManager.swift:79-89 | the room a claim creates holds two distinct sorted participants under the id derived from them |
| Matchmaking.Remove | fizz/fizz/Managers/MatchManager.swift:156 | `remove()` through an optional handle leaves no live listener and does not turn a held handle into `nil` |
| Matchmaking.FindMatchRecursively | fizz/fizz/Managers/MatchManager.swift:38-44 | the search issues its query exactly when matching is on, and does nothing otherwise |
| Matchmaking.StartMatching | fizz/fizz/Managers/MatchManager.swift:30-36 | matching is on, no match is recorded, messages are cleared, both listener handles, the room id and the user id are untouched, and a query is pending |
| Matchmaking.QueryWaiting | fizz/fizz/Managers/MatchManager.swift:44 | the query returns nothing when nobody else waits, and otherwise exactly one waiting id, which is not the caller's and is the least such id in document order |
| Matchmaking.QueryStepSound | fizz/fizz/Managers/MatchManager.swift:44-59 | the query callback queues the caller exactly when the query failed or nobody else waits; otherwise it claims a waiting entry other than the caller's |
| Matchmaking.ClaimTransaction | fizz/fizz/Managers/MatchManager.swift:64-94 | a failed transaction and a claim on a missing entry write nothing; a successful claim adds the room with the sorted `userIds` under the pair's id and deletes the partner's entry, and leaves every other room and every other queue entry (the claimer's included) as it was |
| Matchmaking.ListenToRoom | fizz/fizz/Managers/MatchManager.swift:163-167 | the new message listener is live and stored in the handle; a listener the handle held while live is not removed but orphaned, so exactly one more message listener runs |
| Matchmaking.ClaimCompletion | fizz/fizz/Managers/MatchManager.swift:95-112 | a room result records the match (room id, found, not matching) and starts the message listener, one more running than before, keeping the room handle, the user id and the messages; an error or `nil` changes no flag and searches again exactly when matching is still on |
| Matchmaking.ClaimKeepsRoomsWellFormed | fizz/fizz/Managers/MatchManager.swift:79-92 | a claim between distinct participants keeps every room well formed |
| Matchmaking.AddToQueue | fizz/fizz/Managers/MatchManager.swift:115-117 | the caller's entry is written with the current time; other entries, rooms and messages are unchanged; a failed write changes nothing |
| Matchmaking.ListenForMatch | fizz/fizz/Managers/MatchManager.swift:128-134 | a listener is registered only when no handle is held; with any handle, live or removed, nothing happens |
| Matchmaking.AddToQueueCompletion | fizz/fizz/Managers/MatchManager.swift:117-125 | a failed write turns matching off; a successful one goes on to listen for a room |
| Matchmaking.OnRoomAdded | fizz/fizz/Managers/MatchManager.swift:134-150 | a live listener that sees a room naming the caller records the match, drops its handle and starts the message listener, one more running than before; otherwise nothing changes; the user id and the messages are kept either way |
| Matchmaking.CancelMatching | fizz/fizz/Managers/MatchManager.swift:154-159 | matching is off and the room listener is not live, though a held handle stays held and a nil handle stays nil; the caller's queue entry is deleted unless the unobserved delete fails, in which case the store is untouched; other entries with their timestamps, rooms and messages are unchanged, and so are the message listener, the messages, the room id and the user id |
| Matchmaking.SendMessage | fizz/fizz/Managers/MatchManager.swift:180-195 | without a room, or when the unobserved write fails, nothing happens; otherwise exactly one message from the caller is appended to that room's log, and every other room's log, the queue, the rooms and the manager are unchanged |
| Matchmaking.LeftRoomSendsNothing | fizz/fizz/Managers/MatchManager.swift:180-202 | after leaving the room, sending writes nothing |
| Matchmaking.StopListening | fizz/fizz/Managers/MatchManager.swift:197-202 | both held handles are removed but stay set (a live one becomes removed, never nil), messages and the room id are cleared, the matching flags and the user id are kept, and orphaned message listeners keep running |
| MatchProperties.AtMostOneWinner | fizz/fizz/Managers/MatchManager.swift:74-94 | of any number of claims against one entry, at most one creates a room; one does exactly when the entry existed and some transaction went through; the entry is gone afterwards exactly when it was gone before or someone won |
| MatchProperties.SecondClaimantRetries | fizz/fizz/Managers/MatchManager.swift:74-111 | of two claims in a row the first wins, the second gets `nil` without writing, and the second device searches again while it is still matching |
| MatchProperties.AfterCancel | fizz/fizz/Managers/MatchManager.swift:39 | after cancelling, whether or not the delete went through, the search loop stops at its guard, a lost or failed claim does not resume it, and with no room sending does nothing; a delete that went through has removed the caller's entry |
| MatchProperties.CancelBeforeClaim | fizz/fizz/Managers/MatchManager.swift:154-159 | once a device's cancel has gone through, nobody's claim can put it in a room, and such a claim changes nothing |
| MatchProperties.FailedCancelLeavesEntryClaimable | fizz/fizz/Managers/MatchManager.swift:154-159 | when the unobserved delete of a cancel fails, another device's claim still puts the cancelled user in a room, and the cancelled device, whose room listener is gone, never learns of it |
| MatchProperties.CancelDoesNotStopInFlightWork | fizz/fizz/Managers/MatchManager.swift:95-125 | a claim that commits after its device cancelled still records the match, and a queue write that lands after the cancel puts the device back in the queue |
| MatchProperties.CancelledListenerBlocksRematch | fizz/fizz/Managers/MatchManager.swift:129 | after a cancel, the next search queues but registers no listener, so no added room can reach the device |
| MatchProperties.PairingEndToEnd | fizz/fizz/Managers/MatchManager.swift:38-150 | one device queues and the other finds and claims it; both record the same room, whose id depends only on the pair, and the queue is empty again |
| MatchProperties.SecondMatchOrphansListener | fizz/fizz/Managers/MatchManager.swift:163-167 | after two matches with no `stopListening` in between (the call in `endChat` is commented out), two message listeners run, and `stopListening` stops only one of them |
| MatchProperties.CancelThenRetryMissesMatch | fizz/fizz/Managers/MatchManager.swift:128-159 | a device that cancelled and searched again is claimed into a room and loses its queue entry, yet stays searching with no room |
| BurnEngine.UpdateSparklerPhysics | fizz/fizz/ViewModels/ChatViewModel.swift:59-73 | intensity drops by exactly 0.05·dt with a floor of 0.1; the handle shrinks by exactly dt·(0.5 + new intensity), and when that reaches zero or below the handle is set to 0 and the sparkler goes out; consequently intensity stays in [0.1, 1.0], the handle is never negative, an extinguished sparkler stays out, and a live one loses at least 0.6·dt |
| BurnEngine.TickKeepsSparklerValid | fizz/fizz/ViewModels/ChatViewModel.swift:59-73 | a tick keeps the sparkler invariant: intensity in [0.1, 1.0], handle non-negative, out exactly at zero |
| BurnEngine.CleanupOldMessages | fizz/fizz/ViewModels/ChatViewModel.swift:85-87 | keeps the newest ten messages in their original order; ten or fewer are kept as they are |
| BurnEngine.CleanupIdempotent | fizz/fizz/ViewModels/ChatViewModel.swift:85-87 | capping twice is capping once |
| BurnEngine.SparkAction | fizz/fizz/ViewModels/ChatViewModel.swift:98-111 | within five seconds of the last accepted tap nothing changes; otherwise the tap time becomes now and my intensity rises by 0.2, capped at 1.0; the partner's sparkler and the messages are never touched |
| BurnEngine.SendMessage | fizz/fizz/ViewModels/ChatViewModel.swift:90-96 | one message from "me" is appended at the end, and apart from that the result is a tap at the same instant |
| BurnEngine.GameLoop | fizz/fizz/ViewModels/ChatViewModel.swift:43-57 | a tick on a running timer burns both sparklers by one 0.1 s step, keeps the newest ten messages, runs the finish handler exactly when a sparkler is out and stops the timer exactly then; a stopped timer delivers no tick |
| BurnEngine.HandleKeepsValid | fizz/fizz/ViewModels/ChatViewModel.swift:43-116 | every tick, tap and send keeps both sparklers valid and keeps the timer running exactly while neither is out |
| BurnEngine.RunKeepsValid | fizz/fizz/ViewModels/ChatViewModel.swift:43-116 | the same holds over any sequence of events |
| BurnEngine.HandleKeepsMineAhead | fizz/fizz/ViewModels/ChatViewModel.swift:47-48 | my sparkler, the only one ever tapped, burns at least as fast as the simulated partner's and goes out no later |
| BurnEngine.MineDecidesTheEnd | fizz/fizz/ViewModels/ChatViewModel.swift:54 | in any run, whenever the chat is over my sparkler is out |
| BurnEngine.StoppedStaysStopped | fizz/fizz/ViewModels/ChatViewModel.swift:113-116 | after `finishChat` cancels the timer, no event restarts it or burns either sparkler |
| BurnEngine.ExtinguishedIsFinal | fizz/fizz/ViewModels/ChatViewModel.swift:59-73 | a sparkler that is out stays out in every later state |
| BurnEngine.RunStops | fizz/fizz/ViewModels/ChatViewModel.swift:44-67 | each tick burns at least 0.06 s of handle, so the timer has stopped once the ticks delivered cover my remaining handle at that rate |
| BurnEngine.ChatEndsWithinThousandTicks | fizz/fizz/ViewModels/ChatViewModel.swift:28-29 | a fresh chat starting at 60 s of handle is over and its timer stopped after at most a thousand ticks, whatever the taps and messages |
| BurnEngine.OneSideOutEndsChat | fizz/fizz/ViewModels/ChatViewModel.swift:54-55 | the chat ends on the tick that puts out one sparkler while the other still burns |
| ChatScreen.DisplayedMessages | fizz/fizz/Views/ChatView.swift:106 | the screen shows the newest six messages (all of them when there are fewer), oldest first |
| ChatScreen.DisplayIgnoresCap | fizz/fizz/Views/ChatView.swift:106 | the session's ten-message cap never changes which messages the screen shows |
| ChatScreen.SendMessage | fizz/fizz/Views/ChatView.swift:278-283 | blank input sends nothing; otherwise the raw input goes to the session, the input is cleared and the deck panel hides |
| ChatScreen.SendIffEnabled | fizz/fizz/Views/ChatView.swift:209 | the send action does something exactly when the send button is enabled |
| ChatScreen.SelectDeckItem | fizz/fizz/Views/ChatView.swift:137-139 | a tapped phrase becomes the input and the deck panel closes |
| ChatScreen.SelectThenSendSendsPhrase | fizz/fizz/Views/ChatView.swift:137-139 | sending a tapped non-blank phrase gives the session exactly that phrase and empties the input; a blank phrase sends nothing and stays in the input |
| ChatScreen.ToggleDeckPanel | fizz/fizz/Views/ChatView.swift:167-171 | with an active deck the deck button flips the panel; without one there is no button and nothing changes; the input and the exit dialog are never touched |
| ChatScreen.ToggleTwiceRestores | fizz/fizz/Views/ChatView.swift:167-171 | pressing the deck button twice leaves the view as it was |
| ChatScreen.HistoryFor | fizz/fizz/Views/ChatView.swift:291-297 | the recorded history counts the session's messages, lasts 60 s and takes the selected genre, `.random` when none is selected |
| ChatScreen.EndChat | fizz/fizz/Views/ChatView.swift:288-299 | ending puts that history at the front of the list, shows the end screen and leaves the decks, the menu and the selected genre alone |
| ChatScreen.NaturalEndRecordsAtMostTen | fizz/fizz/ViewModels/ChatViewModel.swift:51-55 | a chat that ended on its own records at most ten messages, because the tick capped the list before checking the end rule |
| DeckEditor.StartEditing | fizz/fizz/Views/DeckCreatorView.swift:291-295 | the deck opens with its name in the name field and an empty phrase field |
| DeckEditor.NewDeckNameNumber | fizz/fizz/Views/DeckCreatorView.swift:287 | the default name is "デッキ " followed by the deck count plus one, so different counts give different names |
| DeckEditor.CreateNewDeck | fizz/fizz/Views/DeckCreatorView.swift:286-289 | a new empty deck with the fresh id and the default name is open in the editor |
| DeckEditor.AddItem | fizz/fizz/Views/DeckCreatorView.swift:297-306 | blank text changes nothing; otherwise exactly one item with the untrimmed text is appended at the end, the field is cleared, and without an open deck no deck appears |
| DeckEditor.RemoveAll | fizz/fizz/Views/DeckCreatorView.swift:313 | no remaining item has the id, every item with another id remains, and nothing new appears |
| DeckEditor.RemoveAllAppend | fizz/fizz/Views/DeckCreatorView.swift:313 | removal works piece by piece, so the kept items stay in their original order |
| DeckEditor.RemoveAbsentId | fizz/fizz/Views/DeckCreatorView.swift:313 | removing an id that no item carries changes nothing |
| DeckEditor.RemoveItem | fizz/fizz/Views/DeckCreatorView.swift:311-316 | without an open deck nothing changes; otherwise the deck's items are those of `removeAll` (every item with another id, in order, duplicates kept, and nothing else), and its other fields and the text fields are unchanged |
| DeckEditor.AddThenRemoveRestores | fizz/fizz/Views/DeckCreatorView.swift:297-316 | adding a phrase and removing it by its fresh id gives back the open deck as it was |
| DeckEditor.SaveDeck | fizz/fizz/Views/DeckCreatorView.swift:318-322 | without an open deck nothing happens; otherwise the deck is handed over under the name field's text and the editor closes |
| DeckEditor.CancelEdit | fizz/fizz/Views/DeckCreatorView.swift:328-330 | the editor closes without handing anything over |
| DeckEditor.CancelThenSaveHandsNothing | fizz/fizz/Views/DeckCreatorView.swift:328-330 | a save after a cancel hands over no deck and changes nothing |
| DeckEditor.EnabledSaveHandsOverUsableDeck | fizz/fizz/Views/DeckCreatorView.swift:277 | when save is enabled, the deck handed over has a non-empty name and at least one item |
| DeckEditor.EditThenSaveRoundTrip | fizz/fizz/Views/DeckCreatorView.swift:291-322 | opening a deck and saving it unchanged hands back the same deck |
| HexColor.HexValue | fizz/fizz/Views/Components/SparklesView.swift:106 | the value of n hex digits is below 16^n |
| HexColor.HexPrefixLength | fizz/fizz/Views/Components/SparklesView.swift:106 | the scan stops at the first non-hex character |
| HexColor.ScanHexInt | fizz/fizz/Views/Components/SparklesView.swift:106 | the scanned value is below 16 to the power of the string's length |
| HexColor.HexPrefixOfRun | fizz/fizz/Views/Components/SparklesView.swift:106 | a run of hex digits followed by a non-hex character is read up to that character exactly |
| HexColor.ScanReadsLeadingDigits | fizz/fizz/Views/Components/SparklesView.swift:106 | after an optional "0x" or "0X", the scan's value is that of the hex digits up to the first character that is not one |
| HexColor.ParseHex | fizz/fizz/Views/Components/SparklesView.swift:103-117 | every component lies in 0..255 for every input; a trimmed length other than 3, 6 or 8 gives (1, 1, 1, 0); lengths 3 and 6 are opaque |
| HexColor.HexValueConcat | fizz/fizz/Views/Components/SparklesView.swift:106 | the value of a concatenation is the front's value shifted by the back's length plus the back's value |
| HexColor.ScanAllHex | fizz/fizz/Views/Components/SparklesView.swift:106 | a string of hex digits is scanned in full |
| HexColor.ParseThreeDigits | fizz/fizz/Views/Components/SparklesView.swift:109-110 | three digits give alpha 255 and each digit d as d·17 |
| HexColor.ParseSixDigits | fizz/fizz/Views/Components/SparklesView.swift:111-112 | six digits give alpha 255 and the three bytes as r, g, b from high to low |
| HexColor.ParseEightDigits | fizz/fizz/Views/Components/SparklesView.swift:113-114 | eight digits give a, r, g, b as the four bytes, alpha from the top byte |
| HexColor.SurroundingsIgnored | fizz/fizz/Views/Components/SparklesView.swift:104 | leading and trailing non-alphanumerics such as '#' do not change the result |
| HexColor.ParseFormatRGB | fizz/fizz/Views/Components/SparklesView.swift:103-112 | parsing "#rrggbb" written from three bytes gives those bytes back with alpha 255 |
| HexColor.ParseFormatARGB | fizz/fizz/Views/Components/SparklesView.swift:103-114 | parsing "#aarrggbb" written from four bytes gives all four back |

## Left out

- Firestore I/O. Network calls, snapshot listeners, `serverTimestamp` and batch commits are left out. The store is the maps above. Every request, the clean-up job's included, is one atomic step whose failure is a `fault`/`ok` parameter. The creation time of a queue entry is the `nowMs` parameter.
- The body of `listenToRoom` (`MatchManager.swift:163-178`). This is the message snapshot listener that decodes documents into `messages`. It is modelled only as a new live message listener whose registration orphans a live predecessor; the messages it would deliver are not modelled.
- Termination of the search. The retry after a lost or failed claim (`MatchManager.swift:96-111`) is unbounded in the code. The model leaves the pending `RunQuery` as a value and claims no termination.
- Ids from the environment. The `UserDefaults` persistence of `userId`, `UUID()` and Firestore auto-ids are parameters.
- Timers and scheduling. `Timer.publish` becomes the `TimerTick` event, `Date()` becomes a `now` parameter, and the `onFinish` callback becomes the `finished` flag of a tick. The clean-up schedule ("every 10 minutes") is left out.
- Logging. `print` and `console.log` are left out; the reaper's logged count is returned as `deleted`.
- Rendering, animation, particle physics, sound and haptics are left out. So are the views not named above and the `/255` conversion to `Double` at the end of `Color(hex:)`.
- The chat view model's preset decks and `selectedDeck` (`ChatViewModel.swift:10-14`) are left out. The chat screen takes its phrases from the app state's active deck.
- `saveDeck`, `deleteDeck`, `setActiveDeck`, `navigateBack` and `isSoundEnabled` are called from views but not defined in `AppState`. The deck editor returns the deck it would hand to `saveDeck` and does not model what happens to it.
- The superseded files `AppViewModel`, `RootView`, `ResultView`, the duplicate `Models/Genre.swift`, and the record files `Room.swift`, `ConversationDeck.swift` and `Item.swift` are left out.
- BurnEngine.SendMessage: the source reads the clock twice, once for the message's timestamp and once for the tap; the model uses one `now` for both.
- BurnEngine.UpdateSparklerPhysics: intensities and durations are exact reals, not IEEE doubles. Rounding in the 0.1-steps is not modelled.
- HexColor.ScanHexInt: `scanHexInt64` saturates on overflow of 64 bits; the model's value is unbounded. Only trimmed lengths of 3, 6 and 8 use the value, and those never overflow.
- Text.IsAlnum: `CharacterSet.alphanumerics` also contains non-ASCII letters and digits; the model takes ASCII letters and digits only. `CharacterSet.whitespaces` is modelled as tab plus the Unicode space separators, without grapheme clustering. Lengths are counted in code points, whereas `hex.count` in `Color(hex:)` counts grapheme clusters, so a combining mark among the digits would change the length branch there and not in the model.

=== FILE: app_state.dfy ===
/**
 The app-wide navigation state: the current screen, the side menu, the chosen
 genre, the saved decks and the list of finished chats (newest first).
 Each action is a pure transition on an immutable record.
 */
module Navigation {
  import opened Options
  import opened AppTypes

  datatype AppState = AppState(
    currentScreen: Screen,
    isMenuOpen: bool,
    selectedGenre: Option<Genre>,
    decks: seq<Deck>,
    activeDeck: Option<Deck>,
    chatHistories: seq<ChatHistory>)

  /** Deck fields are owned by the deck screens; navigation leaves them alone. */
  predicate SameDecks(s: AppState, t: AppState) {
    t.decks == s.decks && t.activeDeck == s.activeDeck
  }

  function Navigate(s: AppState, screen: Screen): (t: AppState)
    ensures t.currentScreen == screen && !t.isMenuOpen
    ensures SameDecks(s, t)
    ensures t.selectedGenre == s.selectedGenre && t.chatHistories == s.chatHistories
  {
    s.(currentScreen := screen, isMenuOpen := false)
  }

  function StartChat(s: AppState): (t: AppState)
    ensures t.currentScreen == Waiting && t.isMenuOpen == s.isMenuOpen
    ensures SameDecks(s, t) && t.selectedGenre == s.selectedGenre && t.chatHistories == s.chatHistories
  {
    s.(currentScreen := Waiting)
  }

  function Matched(s: AppState): (t: AppState)
    ensures t.currentScreen == Chat && t.isMenuOpen == s.isMenuOpen
    ensures SameDecks(s, t) && t.selectedGenre == s.selectedGenre && t.chatHistories == s.chatHistories
  {
    s.(currentScreen := Chat)
  }

  /** Records a finished chat at the front of the history and shows the end screen. */
  function EndChat(s: AppState, history: ChatHistory): (t: AppState)
    ensures |t.chatHistories| == |s.chatHistories| + 1
    ensures t.chatHistories[0] == history && t.chatHistories[1..] == s.chatHistories
    ensures t.currentScreen == End
    ensures SameDecks(s, t) && t.isMenuOpen == s.isMenuOpen && t.selectedGenre == s.selectedGenre
  {
    s.(chatHistories := [history] + s.chatHistories, currentScreen := End)
  }

  function BackToTop(s: AppState): (t: AppState)
    ensures t.currentScreen == Top && t.selectedGenre == None
    ensures SameDecks(s, t) && t.isMenuOpen == s.isMenuOpen && t.chatHistories == s.chatHistories
  {
    s.(currentScreen := Top, selectedGenre := None)
  }

  function OpenMenu(s: AppState): (t: AppState)
    ensures t.isMenuOpen
    ensures t.(isMenuOpen := s.isMenuOpen) == s
  {
    s.(isMenuOpen := true)
  }

  function CloseMenu(s: AppState): (t: AppState)
    ensures !t.isMenuOpen
    ensures t.(isMenuOpen := s.isMenuOpen) == s
  {
    s.(isMenuOpen := false)
  }

  lemma MenuIdempotent(s: AppState)
    ensures OpenMenu(OpenMenu(s)) == OpenMenu(s)
    ensures CloseMenu(CloseMenu(s)) == CloseMenu(s)
    ensures CloseMenu(OpenMenu(s)) == CloseMenu(s)
  {
  }

  /** The navigation actions of the app state, as values. */
  datatype Action =
    | NavigateTo(screen: Screen)
    | StartChatAction
    | MatchedAction
    | EndChatAction(history: ChatHistory)
    | BackToTopAction
    | OpenMenuAction
    | CloseMenuAction

  function Apply(s: AppState, a: Action): AppState {
    match a
    case NavigateTo(screen) => Navigate(s, screen)
    case StartChatAction => StartChat(s)
    case MatchedAction => Matched(s)
    case EndChatAction(h) => EndChat(s, h)
    case BackToTopAction => BackToTop(s)
    case OpenMenuAction => OpenMenu(s)
    case CloseMenuAction => CloseMenu(s)
  }

  function ApplyAll(s: AppState, actions: seq<Action>): AppState
    decreases |actions|
  {
    if actions == [] then s else ApplyAll(Apply(s, actions[0]), actions[1..])
  }

  /** The histories recorded by a run of actions, newest first. */
  function RecordedHistories(actions: seq<Action>): seq<ChatHistory>
    decreases |actions|
  {
    if actions == [] then []
    else
      var rest := RecordedHistories(actions[1..]);
      if actions[0].EndChatAction? then rest + [actions[0].history] else rest
  }

  /**
   No sequence of navigation actions touches the decks, and the history list only
   grows at the front: the old histories remain, in order, at its end.
   */
  lemma {:induction false} NavigationRun(s: AppState, actions: seq<Action>)
    ensures SameDecks(s, ApplyAll(s, actions))
    ensures ApplyAll(s, actions).chatHistories == RecordedHistories(actions) + s.chatHistories
    decreases |actions|
  {
    if actions != [] {
      var s' := Apply(s, actions[0]);
      NavigationRun(s', actions[1..]);
      if actions[0].EndChatAction? {
        assert s'.chatHistories == [actions[0].history] + s.chatHistories;
      }
    }
  }
}

=== FILE: app_types.dfy ===
/**
 The app's value types: the screens, the conversation genres and the records
 for saved phrase decks, finished-chat history and chat messages.
 Times are seconds since Foundation's reference date, as `real`.
 */
module AppTypes {
  import opened Options

  /** Every screen the app can show. */
  datatype Screen = Top | Waiting | Chat | End | DeckScreen | History | Settings

  /** The screens in declaration order. */
  const AllScreens: seq<Screen> := [Top, Waiting, Chat, End, DeckScreen, History, Settings]

  lemma AllScreensComplete()
    ensures |AllScreens| == 7
    ensures forall s: Screen :: s in AllScreens
    ensures forall i, j :: 0 <= i < j < |AllScreens| ==> AllScreens[i] != AllScreens[j]
  {
    forall s: Screen
      ensures s in AllScreens
    {
      match s
      case Top => assert AllScreens[0] == s;
      case Waiting => assert AllScreens[1] == s;
      case Chat => assert AllScreens[2] == s;
      case End => assert AllScreens[3] == s;
      case DeckScreen => assert AllScreens[4] == s;
      case History => assert AllScreens[5] == s;
      case Settings => assert AllScreens[6] == s;
    }
  }

  /** Conversation topics; the raw value is the case name. */
  datatype Genre = Hobby | Casual | Complaint | Life | Work | Random {

    /** `rawValue`, which is also `id`. */
    function Id(): (r: string)
      ensures |r| > 0
    {
      match this
      case Hobby => "hobby"
      case Casual => "casual"
      case Complaint => "complaint"
      case Life => "life"
      case Work => "work"
      case Random => "random"
    }

    /** The Japanese label shown to the user. */
    function DisplayName(): (r: string)
      ensures |r| > 0
    {
      match this
      case Hobby => "趣味"
      case Casual => "雑談"
      case Complaint => "愚痴"
      case Life => "人生"
      case Work => "仕事"
      case Random => "ランダム"
    }
  }

  /** `Genre(rawValue:)`, the failable initializer used when decoding. */
  function FromRawValue(s: string): Option<Genre> {
    if s == "hobby" then Some(Hobby)
    else if s == "casual" then Some(Casual)
    else if s == "complaint" then Some(Complaint)
    else if s == "life" then Some(Life)
    else if s == "work" then Some(Work)
    else if s == "random" then Some(Random)
    else None
  }

  /** `Genre.allCases`, in declaration order. */
  const AllGenres: seq<Genre> := [Hobby, Casual, Complaint, Life, Work, Random]

  lemma AllGenresComplete()
    ensures |AllGenres| == 6
    ensures forall g: Genre :: g in AllGenres
    ensures forall i, j :: 0 <= i < j < |AllGenres| ==> AllGenres[i] != AllGenres[j]
  {
    forall g: Genre
      ensures g in AllGenres
    {
      match g
      case Hobby => assert AllGenres[0] == g;
      case Casual => assert AllGenres[1] == g;
      case Complaint => assert AllGenres[2] == g;
      case Life => assert AllGenres[3] == g;
      case Work => assert AllGenres[4] == g;
      case Random => assert AllGenres[5] == g;
    }
  }

  /** The raw value identifies the genre: decoding an id gives back its genre, and only ids decode. */
  lemma RawValueRoundTrip(g: Genre, s: string)
    ensures FromRawValue(g.Id()) == Some(g)
    ensures FromRawValue(s) == Some(g) ==> g.Id() == s
  {
  }

  /** Distinct genres have distinct ids and distinct labels. */
  lemma GenreLabelsDistinct(g: Genre, h: Genre)
    requires g != h
    ensures g.Id() != h.Id()
    ensures g.DisplayName() != h.DisplayName()
  {
  }

  datatype DeckItem = DeckItem(id: string, text: string)

  datatype Deck = Deck(id: string, name: string, items: seq<DeckItem>)

  datatype ChatHistory = ChatHistory(id: string, date: real, genre: Genre, duration: real, messageCount: int)

  /** A chat message; `id` is absent until the store assigns one. */
  datatype Message = Message(id: Option<string>, senderId: string, content: string, timestamp: real)
}

=== FILE: burn_engine.dfy ===
/**
 The chat session's "burn" engine: two sparklers (mine and a simulated
 partner's) whose spark intensity decays and whose handle burns down on every
 timer tick, a tap that revives my sparkler at most once every five seconds, a
 bounded in-memory message list, and the rule that the chat ends as soon as
 either sparkler has gone out. Times are seconds as `real`; `now` is a parameter.
 */
module BurnEngine {
  import opened Options
  import opened AppTypes

  const BurnRatePerSecond: real := 0.1
  const RecoveryAmount: real := 0.2
  const TapCooldown: real := 5.0
  /** The timer period, which is also the `deltaTime` of a tick. */
  const TickSeconds: real := 0.1
  const MinIntensity: real := 0.1
  const MaxIntensity: real := 1.0
  const InitialDuration: real := 60.0
  const StoredMessageCap: nat := 10
  /** `Date.distantPast`, in seconds since the reference date. */
  const DistantPast: real := -63114076800.0

  datatype Sparkler = Sparkler(maxDuration: real, currentIntensity: real, isExtinguished: bool)

  /**
   A sparkler's intensity lies in [0.1, 1.0], its handle is never negative, and
   it is out exactly when its handle is used up.
   */
  predicate ValidSparkler(s: Sparkler) {
    MinIntensity <= s.currentIntensity <= MaxIntensity && s.maxDuration >= 0.0
    && (s.isExtinguished <==> s.maxDuration == 0.0)
  }

  /** One tick of a sparkler over `dt` seconds. */
  function UpdateSparklerPhysics(s: Sparkler, dt: real): (r: Sparkler)
    ensures r.currentIntensity >= MinIntensity
    ensures dt >= 0.0 && s.currentIntensity <= MaxIntensity ==> r.currentIntensity <= MaxIntensity
    ensures r.maxDuration >= 0.0
    ensures s.isExtinguished ==> r.isExtinguished
    ensures r.isExtinguished <==> s.isExtinguished || r.maxDuration == 0.0
    ensures dt >= 0.0 && !r.isExtinguished ==> r.maxDuration <= s.maxDuration - 0.6 * dt
    ensures var i := if s.currentIntensity - 0.05 * dt < 0.1 then 0.1 else s.currentIntensity - 0.05 * dt;
      && r.currentIntensity == i
      && (s.maxDuration - dt * (0.5 + i) <= 0.0 ==> r.maxDuration == 0.0 && r.isExtinguished)
      && (s.maxDuration - dt * (0.5 + i) > 0.0 ==>
            r.maxDuration == s.maxDuration - dt * (0.5 + i) && r.isExtinguished == s.isExtinguished)
  {
    var decayed := s.currentIntensity - BurnRatePerSecond * 0.5 * dt;
    var intensity := if decayed < 0.1 then 0.1 else decayed;
    var burnAmount := dt * (0.5 + intensity);
    assert dt >= 0.0 ==> burnAmount - 0.6 * dt == dt * (intensity - 0.1) >= 0.0;
    var remaining := s.maxDuration - burnAmount;
    if remaining <= 0.0 then Sparkler(0.0, intensity, true)
    else Sparkler(remaining, intensity, s.isExtinguished)
  }

  /** A tick preserves the sparkler invariant. */
  lemma TickKeepsSparklerValid(s: Sparkler, dt: real)
    requires ValidSparkler(s) && dt > 0.0
    ensures ValidSparkler(UpdateSparklerPhysics(s, dt))
  {
  }

  /** The in-memory message cap: keeps the newest ten, in their original order. */
  function CleanupOldMessages(messages: seq<Message>): (r: seq<Message>)
    ensures |r| == if |messages| > StoredMessageCap then StoredMessageCap else |messages|
    ensures forall i :: 0 <= i < |r| ==> r[i] == messages[|messages| - |r| + i]
    ensures |messages| <= StoredMessageCap ==> r == messages
  {
    if |messages| > StoredMessageCap then messages[|messages| - StoredMessageCap..] else messages
  }

  lemma CleanupIdempotent(messages: seq<Message>)
    ensures CleanupOldMessages(CleanupOldMessages(messages)) == CleanupOldMessages(messages)
  {
  }

  datatype Session = Session(
    messages: seq<Message>,
    mine: Sparkler,
    partner: Sparkler,
    lastTapTime: real,
    timerRunning: bool)

  /** A fresh chat: both sparklers full, no tap yet, the timer running. */
  const NewSession: Session :=
    Session([], Sparkler(InitialDuration, 1.0, false), Sparkler(InitialDuration, 1.0, false), DistantPast, true)

  /** The end rule: either sparkler gone out ends the chat. */
  predicate ChatOver(s: Session) {
    s.mine.isExtinguished || s.partner.isExtinguished
  }

  /** Both sparklers are valid and the timer runs exactly while the chat is not over. */
  predicate ValidSession(s: Session) {
    ValidSparkler(s.mine) && ValidSparkler(s.partner) && (s.timerRunning <==> !ChatOver(s))
  }

  /** A tap on my sparkler; ignored within five seconds of the last accepted tap. */
  function SparkAction(s: Session, now: real): (r: Session)
    ensures now - s.lastTapTime < TapCooldown ==> r == s
    ensures now - s.lastTapTime >= TapCooldown ==>
      && r.lastTapTime == now
      && r.mine.currentIntensity == (if s.mine.currentIntensity + 0.2 < 1.0 then s.mine.currentIntensity + 0.2 else 1.0)
      && r.mine.maxDuration == s.mine.maxDuration && r.mine.isExtinguished == s.mine.isExtinguished
    ensures r.partner == s.partner && r.messages == s.messages && r.timerRunning == s.timerRunning
  {
    if now - s.lastTapTime < TapCooldown then s
    else
      var boosted := s.mine.currentIntensity + RecoveryAmount;
      s.(lastTapTime := now,
         mine := s.mine.(currentIntensity := if MaxIntensity < boosted then MaxIntensity else boosted))
  }

  /** Sending appends my message at the end and then counts as a tap. */
  function SendMessage(s: Session, text: string, now: real): (r: Session)
    ensures r.messages == s.messages + [Message(None, "me", text, now)]
    ensures r.(messages := s.messages) == SparkAction(s, now)
  {
    var msg := Message(None, "me", text, now);
    SparkAction(s.(messages := s.messages + [msg]), now)
  }

  /** The tick's outcome: the new session and whether the finish handler ran. */
  datatype Tick = Tick(session: Session, finished: bool)

  /**
   One timer tick: both sparklers burn, the message list is capped, and if
   either sparkler is out the timer is cancelled and the finish handler runs.
   A cancelled timer delivers no more ticks.
   */
  function GameLoop(s: Session): (t: Tick)
    ensures !s.timerRunning ==> t == Tick(s, false)
    ensures s.timerRunning ==> t.finished == ChatOver(t.session) && t.session.timerRunning == !t.finished
    ensures s.timerRunning ==> |t.session.messages| <= StoredMessageCap
    ensures t.session.lastTapTime == s.lastTapTime
    ensures s.timerRunning ==>
      && t.session.mine == UpdateSparklerPhysics(s.mine, TickSeconds)
      && t.session.partner == UpdateSparklerPhysics(s.partner, TickSeconds)
      && t.session.messages == CleanupOldMessages(s.messages)
  {
    if !s.timerRunning then Tick(s, false)
    else
      var s' := s.(mine := UpdateSparklerPhysics(s.mine, TickSeconds),
                   partner := UpdateSparklerPhysics(s.partner, TickSeconds),
                   messages := CleanupOldMessages(s.messages));
      if ChatOver(s') then Tick(s'.(timerRunning := false), true) else Tick(s', false)
  }

  /** Every input the session reacts to. */
  datatype Event = TimerTick | Tap(now: real) | Send(text: string, now: real)

  function Handle(s: Session, e: Event): Session {
    match e
    case TimerTick => GameLoop(s).session
    case Tap(now) => SparkAction(s, now)
    case Send(text, now) => SendMessage(s, text, now)
  }

  function Run(s: Session, events: seq<Event>): Session
    decreases |events|
  {
    if events == [] then s else Run(Handle(s, events[0]), events[1..])
  }

  function CountTicks(events: seq<Event>): nat
    decreases |events|
  {
    if events == [] then 0 else (if events[0].TimerTick? then 1 else 0) + CountTicks(events[1..])
  }

  /**
   My sparkler never burns slower than the partner's: its intensity is at least
   the partner's, its handle at most the partner's, and it goes out no later.
   */
  predicate MineAhead(s: Session) {
    s.mine.currentIntensity >= s.partner.currentIntensity
    && s.mine.maxDuration <= s.partner.maxDuration
    && (s.partner.isExtinguished ==> s.mine.isExtinguished)
  }

  /** Every event keeps both sparklers valid and the timer tied to the end rule. */
  lemma HandleKeepsValid(s: Session, e: Event)
    requires ValidSession(s)
    ensures ValidSession(Handle(s, e))
  {
    if e.TimerTick? && s.timerRunning {
      TickKeepsSparklerValid(s.mine, TickSeconds);
      TickKeepsSparklerValid(s.partner, TickSeconds);
    }
  }

  lemma {:induction false} RunKeepsValid(s: Session, events: seq<Event>)
    requires ValidSession(s)
    ensures ValidSession(Run(s, events))
    decreases |events|
  {
    if events != [] {
      HandleKeepsValid(s, events[0]);
      RunKeepsValid(Handle(s, events[0]), events[1..]);
    }
  }

  /** Every event keeps my sparkler ahead of the partner's. */
  lemma HandleKeepsMineAhead(s: Session, e: Event)
    requires ValidSession(s) && MineAhead(s)
    ensures MineAhead(Handle(s, e))
  {
  }

  /**
   Since the partner's sparkler is only simulated and never tapped, mine is the
   one that decides the end: whenever the chat is over, my sparkler is out.
   */
  lemma {:induction false} MineDecidesTheEnd(s: Session, events: seq<Event>)
    requires ValidSession(s) && MineAhead(s)
    ensures MineAhead(Run(s, events))
    ensures ChatOver(Run(s, events)) ==> Run(s, events).mine.isExtinguished
    decreases |events|
  {
    if events != [] {
      HandleKeepsValid(s, events[0]);
      HandleKeepsMineAhead(s, events[0]);
      MineDecidesTheEnd(Handle(s, events[0]), events[1..]);
    }
  }

  /** A chat whose timer has stopped stays stopped, and its sparklers no longer change. */
  lemma {:induction false} StoppedStaysStopped(s: Session, events: seq<Event>)
    requires !s.timerRunning
    ensures !Run(s, events).timerRunning
    ensures Run(s, events).mine.maxDuration == s.mine.maxDuration
    ensures Run(s, events).partner == s.partner
    decreases |events|
  {
    if events != [] {
      StoppedStaysStopped(Handle(s, events[0]), events[1..]);
    }
  }

  /** Once a sparkler is out it stays out, whatever happens next. */
  lemma {:induction false} ExtinguishedIsFinal(s: Session, events: seq<Event>)
    ensures s.mine.isExtinguished ==> Run(s, events).mine.isExtinguished
    ensures s.partner.isExtinguished ==> Run(s, events).partner.isExtinguished
    decreases |events|
  {
    if events != [] {
      ExtinguishedIsFinal(Handle(s, events[0]), events[1..]);
    }
  }

  /**
   Each tick burns at least 0.06 s of handle, so once the ticks delivered
   cover my remaining handle at that rate the timer has stopped.
   */
  lemma {:induction false} RunStops(s: Session, events: seq<Event>)
    requires ValidSession(s)
    requires s.mine.maxDuration <= 0.06 * CountTicks(events) as real
    ensures !Run(s, events).timerRunning
    decreases |events|
  {
    if events != [] {
      var s' := Handle(s, events[0]);
      HandleKeepsValid(s, events[0]);
      if !s'.timerRunning {
        StoppedStaysStopped(s', events[1..]);
      } else {
        if events[0].TimerTick? {
          assert s'.mine.maxDuration <= s.mine.maxDuration - 0.06;
        }
        RunStops(s', events[1..]);
      }
    }
  }

  /** A fresh chat is over after at most a thousand ticks, however the user taps. */
  lemma ChatEndsWithinThousandTicks(events: seq<Event>)
    requires CountTicks(events) >= 1000
    ensures !Run(NewSession, events).timerRunning
    ensures ChatOver(Run(NewSession, events))
  {
    RunStops(NewSession, events);
    RunKeepsValid(NewSession, events);
  }

  /**
   The end rule is first-to-zero, not joint: a tick that puts out my sparkler
   ends the chat while the partner's still has 45 seconds of handle.
   */
  lemma OneSideOutEndsChat()
    ensures var s := Session([], Sparkler(0.05, 1.0, false), Sparkler(45.0, 1.0, false), DistantPast, true);
            var t := GameLoop(s);
            && t.finished && !t.session.timerRunning
            && t.session.mine.isExtinguished
            && !t.session.partner.isExtinguished && t.session.partner.maxDuration > 44.0
  {
  }
}

=== FILE: chat_view.dfy ===
/**
 The chat screen's own state and rules: the input field, the phrase-deck panel,
 which messages are shown, and the history entry recorded when the chat ends.
 The session underneath is the burn engine's.
 */
module ChatScreen {
  import opened Options
  import opened Text
  import opened AppTypes
  import Navigation
  import BurnEngine

  /** How many of the newest messages the screen shows. */
  const DisplayedMessageCount: nat := 6

  /** The length the history records for every chat, in seconds. */
  const RecordedDuration: real := 60.0

  datatype ChatView = ChatView(inputText: string, showExitConfirm: bool, showDeckPanel: bool)

  /** The messages on screen: the newest six, oldest first. */
  function DisplayedMessages(messages: seq<Message>): (r: seq<Message>)
    ensures |r| == if |messages| < DisplayedMessageCount then |messages| else DisplayedMessageCount
    ensures forall i :: 0 <= i < |r| ==> r[i] == messages[|messages| - |r| + i]
  {
    if |messages| <= DisplayedMessageCount then messages else messages[|messages| - DisplayedMessageCount..]
  }

  /**
   The ten-message cap of the session never changes what the screen shows: the
   newest six of the capped list are the newest six of the full list.
   */
  lemma DisplayIgnoresCap(messages: seq<Message>)
    ensures DisplayedMessages(BurnEngine.CleanupOldMessages(messages)) == DisplayedMessages(messages)
  {
    var capped := BurnEngine.CleanupOldMessages(messages);
    var a, b := DisplayedMessages(capped), DisplayedMessages(messages);
    assert |a| == |b|;
    forall i | 0 <= i < |a| ensures a[i] == b[i] {
      assert a[i] == capped[|capped| - |a| + i];
      assert capped[|capped| - |a| + i] == messages[|messages| - |capped| + (|capped| - |a| + i)];
    }
  }

  /** The send button is disabled while the input is blank. */
  predicate SendDisabled(v: ChatView) {
    Trim(v.inputText, IsWhitespace) == []
  }

  datatype Screen = Screen(view: ChatView, session: BurnEngine.Session)

  /**
   Sends the raw input text unless it is blank; a send clears the input and
   hides the deck panel.
   */
  function SendMessage(s: Screen, now: real): (r: Screen)
    ensures IsBlank(s.view.inputText) ==> r == s
    ensures !IsBlank(s.view.inputText) ==>
      && r.session == BurnEngine.SendMessage(s.session, s.view.inputText, now)
      && r.view == s.view.(inputText := "", showDeckPanel := false)
  {
    TrimWhitespaceEmptyIffBlank(s.view.inputText);
    if SendDisabled(s.view) then s
    else Screen(s.view.(inputText := "", showDeckPanel := false),
                BurnEngine.SendMessage(s.session, s.view.inputText, now))
  }

  /** Tapping a phrase of the active deck puts it in the input and closes the panel. */
  function SelectDeckItem(v: ChatView, item: DeckItem): (r: ChatView)
    ensures r.inputText == item.text && !r.showDeckPanel
    ensures r.showExitConfirm == v.showExitConfirm
  {
    v.(inputText := item.text, showDeckPanel := false)
  }

  /** The deck button, shown only while a deck is active, flips the panel; without one there is no button. */
  function ToggleDeckPanel(app: Navigation.AppState, v: ChatView): (r: ChatView)
    ensures app.activeDeck.None? ==> r == v
    ensures app.activeDeck.Some? ==> r.showDeckPanel != v.showDeckPanel
    ensures r.inputText == v.inputText && r.showExitConfirm == v.showExitConfirm
  {
    if app.activeDeck.None? then v else v.(showDeckPanel := !v.showDeckPanel)
  }

  /** Pressing the deck button twice puts the panel back as it was. */
  lemma ToggleTwiceRestores(app: Navigation.AppState, v: ChatView)
    ensures ToggleDeckPanel(app, ToggleDeckPanel(app, v)) == v
  {
  }

  /**
   A tapped phrase, sent as it stands, is sent verbatim: the session receives
   exactly the phrase's text. A blank phrase sends nothing.
   */
  lemma SelectThenSendSendsPhrase(s: Screen, item: DeckItem, now: real)
    ensures var r := SendMessage(Screen(SelectDeckItem(s.view, item), s.session), now);
      && (!IsBlank(item.text) ==> r.session == BurnEngine.SendMessage(s.session, item.text, now) && r.view.inputText == "")
      && (IsBlank(item.text) ==> r.session == s.session && r.view.inputText == item.text)
  {
  }

  /** The history entry for a chat that ends now. */
  function HistoryFor(app: Navigation.AppState, session: BurnEngine.Session, id: string, now: real): (h: ChatHistory)
    ensures h.messageCount == |session.messages|
    ensures h.duration == 60.0
    ensures h.genre == app.selectedGenre.GetOr(Random)
    ensures app.selectedGenre == None ==> h.genre == Random
    ensures h.id == id && h.date == now
  {
    ChatHistory(id, now, app.selectedGenre.GetOr(Random), RecordedDuration, |session.messages|)
  }

  /** Leaving the chat records its history at the front of the list and shows the end screen. */
  function EndChat(app: Navigation.AppState, session: BurnEngine.Session, id: string, now: real): (r: Navigation.AppState)
    ensures r.chatHistories == [HistoryFor(app, session, id, now)] + app.chatHistories
    ensures r.currentScreen == End
    ensures Navigation.SameDecks(app, r)
    ensures r.isMenuOpen == app.isMenuOpen && r.selectedGenre == app.selectedGenre
  {
    Navigation.EndChat(app, HistoryFor(app, session, id, now))
  }

  /**
   When the chat ends on its own (the tick that puts a sparkler out), the
   recorded message count is at most ten, because the tick capped the list
   before it checked the end rule.
   */
  lemma NaturalEndRecordsAtMostTen(app: Navigation.AppState, s: BurnEngine.Session, id: string, now: real)
    requires BurnEngine.GameLoop(s).finished
    ensures EndChat(app, BurnEngine.GameLoop(s).session, id, now).chatHistories[0].messageCount <= 10
  {
  }

  /** The send action does something exactly when the send button is enabled. */
  lemma SendIffEnabled(s: Screen, now: real)
    ensures SendMessage(s, now) == s <==> SendDisabled(s.view)
  {
    TrimWhitespaceEmptyIffBlank(s.view.inputText);
    if !SendDisabled(s.view) {
      var r := SendMessage(s, now);
      assert |r.session.messages| == |s.session.messages| + 1;
    }
  }
}

=== FILE: deck_editor.dfy ===
/**
 The phrase-deck editor: the deck being edited (if any), the name field and
 the new-phrase field. Fresh ids are parameters; the deck handed over on save
 is returned, since storing it belongs to the app state, which is not modelled.
 */
module DeckEditor {
  import opened Options
  import opened Text
  import opened AppTypes

  datatype Editor = Editor(editingDeck: Option<Deck>, deckName: string, newItemText: string)

  /** Opens `deck` in the editor with its name in the name field and an empty phrase field. */
  function StartEditing(e: Editor, deck: Deck): (r: Editor)
    ensures r.editingDeck == Some(deck) && r.deckName == deck.name && r.newItemText == ""
  {
    Editor(Some(deck), deck.name, "")
  }

  /** The default name of a new deck when `count` decks exist: "デッキ " and the next number. */
  function NewDeckName(count: nat): string {
    "デッキ " + NatToString(count + 1)
  }

  /** The number in a default name is one more than the deck count, so names differ per count. */
  lemma NewDeckNameNumber(count: nat, other: nat)
    ensures |NewDeckName(count)| > 4 && NewDeckName(count)[..4] == "デッキ "
    ensures ParseNat(NewDeckName(count)[4..]) == count + 1
    ensures other != count ==> NewDeckName(other) != NewDeckName(count)
  {
    assert NewDeckName(count)[4..] == NatToString(count + 1);
    NatToStringRoundTrip(count + 1);
    if NewDeckName(other) == NewDeckName(count) {
      assert NatToString(other + 1) == NewDeckName(other)[4..];
      NatToStringInjective(other + 1, count + 1);
    }
  }

  /** Starts editing a new, empty deck with the default name. */
  function CreateNewDeck(e: Editor, deckCount: nat, freshId: string): (r: Editor)
    ensures r.editingDeck == Some(Deck(freshId, NewDeckName(deckCount), []))
    ensures r.deckName == NewDeckName(deckCount) && r.newItemText == ""
  {
    StartEditing(e, Deck(freshId, NewDeckName(deckCount), []))
  }

  /**
   Adds the phrase field's text, untrimmed, as a new item at the end; a blank
   field changes nothing. The field is cleared even when no deck is open.
   */
  function AddItem(e: Editor, freshId: string): (r: Editor)
    ensures IsBlank(e.newItemText) ==> r == e
    ensures !IsBlank(e.newItemText) ==> r.newItemText == "" && r.deckName == e.deckName
    ensures !IsBlank(e.newItemText) && e.editingDeck.Some? ==>
      && r.editingDeck.Some?
      && r.editingDeck.value.items == e.editingDeck.value.items + [DeckItem(freshId, e.newItemText)]
      && r.editingDeck.value.(items := e.editingDeck.value.items) == e.editingDeck.value
    ensures e.editingDeck.None? ==> r.editingDeck.None?
  {
    TrimWhitespaceEmptyIffBlank(e.newItemText);
    if Trim(e.newItemText, IsWhitespace) == [] then e
    else
      var items := (if e.editingDeck.Some? then e.editingDeck.value.items else []) + [DeckItem(freshId, e.newItemText)];
      var deck := match e.editingDeck
        case Some(d) => Some(d.(items := items))
        case None => None;
      e.(editingDeck := deck, newItemText := "")
  }

  /** `items.removeAll { $0.id == id }`. */
  function RemoveAll(items: seq<DeckItem>, id: string): (r: seq<DeckItem>)
    ensures |r| <= |items|
    ensures forall i :: 0 <= i < |r| ==> r[i].id != id
    ensures forall i :: 0 <= i < |items| && items[i].id != id ==> items[i] in r
    ensures forall x :: x in r ==> x in items
  {
    if items == [] then []
    else if items[0].id == id then RemoveAll(items[1..], id)
    else [items[0]] + RemoveAll(items[1..], id)
  }

  /** Removal works piecewise, so the kept items stay in their original order. */
  lemma {:induction false} RemoveAllAppend(a: seq<DeckItem>, b: seq<DeckItem>, id: string)
    ensures RemoveAll(a + b, id) == RemoveAll(a, id) + RemoveAll(b, id)
  {
    if a == [] {
      assert a + b == b;
    } else {
      assert (a + b)[1..] == a[1..] + b;
      RemoveAllAppend(a[1..], b, id);
    }
  }

  /** Removing an id that no item carries changes nothing. */
  lemma {:induction false} RemoveAbsentId(items: seq<DeckItem>, id: string)
    requires forall i :: 0 <= i < |items| ==> items[i].id != id
    ensures RemoveAll(items, id) == items
  {
    if items != [] {
      RemoveAbsentId(items[1..], id);
      assert items == [items[0]] + items[1..];
    }
  }

  /** Deletes every item with the given id from the open deck. */
  function RemoveItem(e: Editor, id: string): (r: Editor)
    ensures e.editingDeck.None? ==> r == e
    ensures e.editingDeck.Some? ==>
      && r.editingDeck.Some? && r.deckName == e.deckName && r.newItemText == e.newItemText
      && r.editingDeck.value.(items := e.editingDeck.value.items) == e.editingDeck.value
      && r.editingDeck.value.items == RemoveAll(e.editingDeck.value.items, id)
      && (forall x :: x in r.editingDeck.value.items <==> x in e.editingDeck.value.items && x.id != id)
  {
    match e.editingDeck
    case None => e
    case Some(d) => e.(editingDeck := Some(d.(items := RemoveAll(d.items, id))))
  }

  /** The save button is enabled when the name is non-empty and the open deck has a phrase. */
  predicate SaveEnabled(e: Editor) {
    !(e.deckName == [] || (if e.editingDeck.Some? then e.editingDeck.value.items == [] else true))
  }

  /** The result of saving: the new editor and the deck handed to the app state, if any. */
  datatype Saved = Saved(editor: Editor, deck: Option<Deck>)

  /** Saves the open deck under the name field's text and closes it; without an open deck, nothing. */
  function SaveDeck(e: Editor): (r: Saved)
    ensures e.editingDeck.None? ==> r == Saved(e, None)
    ensures e.editingDeck.Some? ==>
      && r.deck == Some(e.editingDeck.value.(name := e.deckName))
      && r.editor == e.(editingDeck := None)
  {
    match e.editingDeck
    case None => Saved(e, None)
    case Some(d) => Saved(e.(editingDeck := None), Some(d.(name := e.deckName)))
  }

  /** Closes the editor without handing anything over. */
  function CancelEdit(e: Editor): (r: Editor)
    ensures r.editingDeck == None && r.deckName == e.deckName && r.newItemText == e.newItemText
  {
    e.(editingDeck := None)
  }

  /**
   Cancelling hands nothing over: a save after a cancel has no deck to save,
   whatever was being edited.
   */
  lemma CancelThenSaveHandsNothing(e: Editor)
    ensures SaveDeck(CancelEdit(e)).deck == None
    ensures SaveDeck(CancelEdit(e)).editor == CancelEdit(e)
  {
  }

  /** Whenever save is enabled, the deck it hands over is named and non-empty. */
  lemma EnabledSaveHandsOverUsableDeck(e: Editor)
    requires SaveEnabled(e)
    ensures SaveDeck(e).deck.Some?
    ensures SaveDeck(e).deck.value.name != [] && SaveDeck(e).deck.value.items != []
    ensures SaveDeck(e).deck.value.id == e.editingDeck.value.id
  {
  }

  /** Editing a deck and saving it without changes hands back the same deck. */
  lemma EditThenSaveRoundTrip(e: Editor, deck: Deck)
    ensures SaveDeck(StartEditing(e, deck)).deck == Some(deck)
    ensures SaveDeck(StartEditing(e, deck)).editor.editingDeck == None
  {
  }

  /**
   Adding a phrase and then removing it by its fresh id gives back the deck as it
   was, provided no phrase of the deck already carried that id.
   */
  lemma AddThenRemoveRestores(e: Editor, freshId: string)
    requires e.editingDeck.Some?
    requires forall i :: 0 <= i < |e.editingDeck.value.items| ==> e.editingDeck.value.items[i].id != freshId
    ensures RemoveItem(AddItem(e, freshId), freshId).editingDeck == e.editingDeck
  {
    var items := e.editingDeck.value.items;
    if !IsBlank(e.newItemText) {
      var added := AddItem(e, freshId).editingDeck.value.items;
      assert added == items + [DeckItem(freshId, e.newItemText)];
      RemoveAllAppend(items, [DeckItem(freshId, e.newItemText)], freshId);
      RemoveAbsentId(items, freshId);
      assert RemoveAll([DeckItem(freshId, e.newItemText)], freshId) == [];
      var d := e.editingDeck.value;
      assert AddItem(e, freshId).editingDeck == Some(d.(items := added));
      assert RemoveAll(added, freshId) == items + [];
      assert items + [] == items;
    } else {
      RemoveAbsentId(items, freshId);
    }
  }
}

=== FILE: hex_color.dfy ===
/**
 The colour initializer `Color(hex:)`, up to its integer (a, r, g, b) tuple:
 strip non-alphanumerics from both ends, scan a hexadecimal integer from the
 front, then split it by the trimmed length (3: 12-bit RGB, 6: 24-bit RGB,
 8: 32-bit ARGB; anything else: (1, 1, 1, 0)). On the unsigned 64-bit value,
 `x >> k` is `x / 2^k` and `x & 0xF`, `x & 0xFF` are `x % 16`, `x % 256`.
 */
module HexColor {
  import opened Text

  predicate IsHexDigit(c: char) {
    IsDigit(c) || 'a' <= c <= 'f' || 'A' <= c <= 'F'
  }

  predicate AllHex(s: string) {
    forall i :: 0 <= i < |s| ==> IsHexDigit(s[i])
  }

  function HexDigitValue(c: char): (d: nat)
    requires IsHexDigit(c)
    ensures d < 16
  {
    if IsDigit(c) then (c as int - '0' as int) as nat
    else if 'a' <= c <= 'f' then (c as int - 'a' as int + 10) as nat
    else (c as int - 'A' as int + 10) as nat
  }

  /** The lower-case digit for a value below 16. */
  function HexChar(d: nat): (c: char)
    requires d < 16
    ensures IsHexDigit(c) && IsAlnum(c) && HexDigitValue(c) == d
  {
    "0123456789abcdef"[d]
  }

  function Pow16(n: nat): (p: nat)
    ensures p > 0
  {
    if n == 0 then 1 else 16 * Pow16(n - 1)
  }

  lemma {:induction false} Pow16Monotone(m: nat, n: nat)
    requires m <= n
    ensures Pow16(m) <= Pow16(n)
    decreases n
  {
    if m < n {
      Pow16Monotone(m, n - 1);
    }
  }

  /** The value of a string of hex digits, most significant first; it fits in its digits. */
  function HexValue(s: string): (v: nat)
    requires AllHex(s)
    ensures v < Pow16(|s|)
  {
    if s == [] then 0 else HexValue(s[..|s| - 1]) * 16 + HexDigitValue(s[|s| - 1])
  }

  /** Length of the longest prefix of hex digits. */
  function HexPrefixLength(s: string): (k: nat)
    ensures k <= |s|
    ensures AllHex(s[..k])
    ensures k < |s| ==> !IsHexDigit(s[k])
  {
    if s == [] || !IsHexDigit(s[0]) then 0
    else
      var k := 1 + HexPrefixLength(s[1..]);
      assert s[..k] == [s[0]] + s[1..][..k - 1];
      k
  }

  /**
   `Scanner.scanHexInt64`: an optional "0x" or "0X", then as many hex digits as
   follow; no digits leaves the result at 0. It never exceeds the digit count of
   its input.
   */
  function ScanHexInt(s: string): (v: nat)
    ensures v < Pow16(|s|)
  {
    var body := if |s| >= 2 && s[0] == '0' && (s[1] == 'x' || s[1] == 'X') then s[2..] else s;
    var k := HexPrefixLength(body);
    Pow16Monotone(k, |s|);
    HexValue(body[..k])
  }

  datatype ARGB = ARGB(a: nat, r: nat, g: nat, b: nat)

  /** The integer components `Color(hex:)` computes before scaling them to [0, 1]. */
  function ParseHex(hex: string): (c: ARGB)
    ensures c.a <= 255 && c.r <= 255 && c.g <= 255 && c.b <= 255
    ensures var n := |Trim(hex, NotAlnum)|; n != 3 && n != 6 && n != 8 ==> c == ARGB(1, 1, 1, 0)
    ensures var n := |Trim(hex, NotAlnum)|; n == 3 || n == 6 ==> c.a == 255
  {
    var t := Trim(hex, NotAlnum);
    var v := ScanHexInt(t);
    if |t| == 3 then
      assert Pow16(3) == 4096;
      ARGB(255, (v / 256) * 17, (v / 16 % 16) * 17, (v % 16) * 17)
    else if |t| == 6 then
      assert Pow16(6) == 16777216;
      ARGB(255, v / 65536, v / 256 % 256, v % 256)
    else if |t| == 8 then
      assert Pow16(8) == 4294967296;
      ARGB(v / 16777216, v / 65536 % 256, v / 256 % 256, v % 256)
    else ARGB(1, 1, 1, 0)
  }

  // ---------------------------------------------------------------------
  // Digit-level reading of the three accepted lengths
  // ---------------------------------------------------------------------

  lemma MulLess(a: int, b: int, n: int)
    requires n > 0 && a * n < (b + 1) * n
    ensures a <= b
  {
  }

  /** Euclidean division undoes `q * n + r` when the remainder is below `n`. */
  lemma DivMod(q: nat, r: nat, n: nat)
    requires r < n
    ensures (q * n + r) / n == q && (q * n + r) % n == r
  {
    var x := q * n + r;
    assert x / n * n + x % n == x;
    MulLess(x / n, q, n);
    MulLess(q, x / n, n);
  }

  lemma Regroup(a: int, b: int, p: int, d: int)
    ensures (a * p + b) * 16 + d == a * (p * 16) + (b * 16 + d)
  {
  }

  /** Hex strings side by side are a hex string. */
  lemma AllHexConcat(s: string, t: string)
    requires AllHex(s) && AllHex(t)
    ensures AllHex(s + t)
  {
    forall i | 0 <= i < |s + t| ensures IsHexDigit((s + t)[i]) {
      if i < |s| { assert (s + t)[i] == s[i]; } else { assert (s + t)[i] == t[i - |s|]; }
    }
  }

  /** The last digit of `s + t` is the last digit of a non-empty `t`, and the rest is `s` followed by the rest of `t`. */
  lemma HexValueConcatLast(s: string, t: string)
    requires AllHex(s) && AllHex(t) && t != []
    ensures AllHex(s + t) && AllHex(t[..|t| - 1]) && AllHex(s + t[..|t| - 1])
    ensures HexValue(s + t) == HexValue(s + t[..|t| - 1]) * 16 + HexDigitValue(t[|t| - 1])
  {
    var t' := t[..|t| - 1];
    AllHexSlices(t, |t| - 1);
    AllHexConcat(s, t);
    AllHexConcat(s, t');
    assert (s + t)[..|s + t| - 1] == s + t';
    assert (s + t)[|s + t| - 1] == t[|t| - 1];
  }

  lemma {:induction false} HexValueConcat(s: string, t: string)
    requires AllHex(s) && AllHex(t)
    ensures AllHex(s + t)
    ensures HexValue(s + t) == HexValue(s) * Pow16(|t|) + HexValue(t)
    decreases |t|
  {
    AllHexConcat(s, t);
    if t == [] {
      assert s + t == s;
    } else {
      var t' := t[..|t| - 1];
      var d := HexDigitValue(t[|t| - 1]);
      HexValueConcatLast(s, t);
      HexValueConcat(s, t');
      assert HexValue(t) == HexValue(t') * 16 + d;
      assert Pow16(|t|) == Pow16(|t'|) * 16;
      Regroup(HexValue(s), HexValue(t'), Pow16(|t'|), d);
    }
  }

  /** Both parts of an all-hex string are all hex. */
  lemma AllHexSlices(s: string, k: nat)
    requires AllHex(s) && k <= |s|
    ensures AllHex(s[..k]) && AllHex(s[k..])
  {
    forall i | 0 <= i < k ensures IsHexDigit(s[..k][i]) { assert s[..k][i] == s[i]; }
    forall i | 0 <= i < |s| - k ensures IsHexDigit(s[k..][i]) { assert s[k..][i] == s[k + i]; }
  }

  /** The value of a two-digit pair: high digit times 16 plus low digit. */
  function PairValue(s: string, i: nat): (v: nat)
    requires AllHex(s) && i + 1 < |s|
    ensures v < 256
  {
    HexDigitValue(s[i]) * 16 + HexDigitValue(s[i + 1])
  }

  /** The last two digits form the low byte; the digits before them are shifted by one byte. */
  lemma DropLastPair(s: string)
    requires AllHex(s) && |s| >= 2
    ensures AllHex(s[..|s| - 2])
    ensures HexValue(s) == HexValue(s[..|s| - 2]) * 256 + PairValue(s, |s| - 2)
  {
    var n := |s|;
    var u, w := s[..n - 1], s[..n - 2];
    AllHexSlices(s, n - 1);
    AllHexSlices(s, n - 2);
    assert u[..n - 2] == w && u[n - 2] == s[n - 2];
    assert HexValue(u) == HexValue(w) * 16 + HexDigitValue(s[n - 2]);
  }

  lemma HexValueOfOne(c: char)
    requires IsHexDigit(c)
    ensures HexValue([c]) == HexDigitValue(c)
  {
    assert [c][..0] == [];
  }

  lemma HexValueOfPair(s: string, i: nat)
    requires AllHex(s) && i + 1 < |s|
    ensures AllHex(s[i..i + 2]) && HexValue(s[i..i + 2]) == PairValue(s, i)
  {
    var p := s[i..i + 2];
    assert p[..1] == [s[i]];
    HexValueOfOne(s[i]);
  }

  /** An all-hex string never starts with "0x", so the scan reads every digit. */
  lemma ScanAllHex(s: string)
    requires AllHex(s)
    ensures ScanHexInt(s) == HexValue(s)
  {
    assert s[..|s|] == s;
  }

  /** The scan stops exactly where the run of hex digits ends. */
  lemma HexPrefixOfRun(d: string, rest: string)
    requires AllHex(d) && (rest == [] || !IsHexDigit(rest[0]))
    ensures HexPrefixLength(d + rest) == |d| && (d + rest)[..|d|] == d
  {
    var w := d + rest;
    var k := HexPrefixLength(w);
    assert forall i :: 0 <= i < |d| ==> w[i] == d[i] && IsHexDigit(w[i]);
    assert rest != [] ==> w[|d|] == rest[0] && !IsHexDigit(w[|d|]);
    assert forall i :: 0 <= i < k ==> w[..k][i] == w[i] && IsHexDigit(w[i]);
    assert w[..|d|] == d;
  }

  /**
   What the scan reads: after an optional "0x" or "0X", exactly the hex digits up
   to the first character that is not one. Without a prefix, the input must not
   itself begin with "0x" (which the scan would take as a prefix).
   */
  lemma ScanReadsLeadingDigits(pre: string, d: string, rest: string)
    requires pre == "" || pre == "0x" || pre == "0X"
    requires AllHex(d) && (rest == [] || !IsHexDigit(rest[0]))
    requires pre == "" ==> !(d == "0" && rest != [] && (rest[0] == 'x' || rest[0] == 'X'))
    ensures ScanHexInt(pre + d + rest) == HexValue(d)
  {
    var s := pre + d + rest;
    var w := d + rest;
    assert s == pre + w;
    var hasPrefix := |s| >= 2 && s[0] == '0' && (s[1] == 'x' || s[1] == 'X');
    if pre == "" {
      assert s == w;
      assert |d| >= 1 ==> s[0] == d[0];
      assert |d| >= 2 ==> IsHexDigit(s[1]);
      assert |d| == 0 && rest != [] ==> s[0] == rest[0];
      assert |d| == 1 && rest != [] ==> s[1] == rest[0] && d == [s[0]];
      assert !hasPrefix;
    } else {
      assert hasPrefix && s[2..] == w;
    }
    HexPrefixOfRun(d, rest);
  }

  /** A non-empty all-hex string is its own trimmed form and its own scanned value. */
  lemma ParseHexOfDigits(s: string)
    requires AllHex(s) && s != []
    ensures Trim(s, NotAlnum) == s && ScanHexInt(Trim(s, NotAlnum)) == HexValue(s)
  {
    assert IsHexDigit(s[0]) && IsHexDigit(s[|s| - 1]);
    TrimNoop(s, NotAlnum);
    ScanAllHex(s);
  }

  /** Three digits: each digit d becomes d * 17, and alpha is 255. */
  lemma ParseThreeDigits(s: string)
    requires |s| == 3 && AllHex(s)
    ensures ParseHex(s) == ARGB(255, HexDigitValue(s[0]) * 17, HexDigitValue(s[1]) * 17, HexDigitValue(s[2]) * 17)
  {
    ParseHexOfDigits(s);
    var d0, d1, d2 := HexDigitValue(s[0]), HexDigitValue(s[1]), HexDigitValue(s[2]);
    HexValueOfPair(s, 0);
    assert s[..2] == s[0..2];
    assert HexValue(s) == (d0 * 16 + d1) * 16 + d2;
    ThreeNibblesSplit(d0, d1, d2);
  }

  /** The digit fields of a 12-bit value built from three digits. */
  lemma ThreeNibblesSplit(d0: nat, d1: nat, d2: nat)
    requires d0 < 16 && d1 < 16 && d2 < 16
    ensures var v := (d0 * 16 + d1) * 16 + d2;
      v / 256 == d0 && v / 16 % 16 == d1 && v % 16 == d2
  {
    var v := (d0 * 16 + d1) * 16 + d2;
    DivMod(d0 * 16 + d1, d2, 16);
    DivMod(d0, d1, 16);
    assert v == d0 * 256 + (d1 * 16 + d2);
    DivMod(d0, d1 * 16 + d2, 256);
  }

  /** Four digits read as two pairs. */
  lemma FourDigitValue(s: string)
    requires |s| == 4 && AllHex(s)
    ensures HexValue(s) == PairValue(s, 0) * 256 + PairValue(s, 2)
  {
    DropLastPair(s);
    HexValueOfPair(s, 0);
    assert s[..2] == s[0..2];
  }

  lemma SixDigitValue(s: string)
    requires |s| == 6 && AllHex(s)
    ensures HexValue(s) == (PairValue(s, 0) * 256 + PairValue(s, 2)) * 256 + PairValue(s, 4)
  {
    var front := s[..4];
    DropLastPair(s);
    FourDigitValue(front);
    assert PairValue(front, 0) == PairValue(s, 0) && PairValue(front, 2) == PairValue(s, 2);
  }

  lemma EightDigitValue(s: string)
    requires |s| == 8 && AllHex(s)
    ensures HexValue(s) == (PairValue(s, 0) * 256 + PairValue(s, 2)) * 65536 + (PairValue(s, 4) * 256 + PairValue(s, 6))
  {
    var front := s[..6];
    DropLastPair(s);
    SixDigitValue(front);
    assert PairValue(front, 0) == PairValue(s, 0) && PairValue(front, 2) == PairValue(s, 2);
    assert PairValue(front, 4) == PairValue(s, 4);
  }

  /** Six digits: red, green and blue are the three pairs from left to right; alpha is 255. */
  lemma ParseSixDigits(s: string)
    requires |s| == 6 && AllHex(s)
    ensures ParseHex(s) == ARGB(255, PairValue(s, 0), PairValue(s, 2), PairValue(s, 4))
  {
    ParseHexOfDigits(s);
    SixDigitValue(s);
    ThreeBytesSplit(PairValue(s, 0), PairValue(s, 2), PairValue(s, 4));
  }

  /** The byte fields of a 24-bit value built from three bytes. */
  lemma ThreeBytesSplit(p0: nat, p1: nat, p2: nat)
    requires p0 < 256 && p1 < 256 && p2 < 256
    ensures var v := (p0 * 256 + p1) * 256 + p2;
      v / 65536 == p0 && v / 256 % 256 == p1 && v % 256 == p2
  {
    var v := (p0 * 256 + p1) * 256 + p2;
    DivMod(p0 * 256 + p1, p2, 256);
    DivMod(p0, p1, 256);
    assert v == p0 * 65536 + (p1 * 256 + p2);
    DivMod(p0, p1 * 256 + p2, 65536);
  }

  /** Eight digits: the pairs are alpha, red, green and blue, in that order. */
  lemma ParseEightDigits(s: string)
    requires |s| == 8 && AllHex(s)
    ensures ParseHex(s) == ARGB(PairValue(s, 0), PairValue(s, 2), PairValue(s, 4), PairValue(s, 6))
  {
    ParseHexOfDigits(s);
    EightDigitValue(s);
    FourBytesSplit(PairValue(s, 0), PairValue(s, 2), PairValue(s, 4), PairValue(s, 6));
  }

  /** The byte fields of a 32-bit value built from four bytes. */
  lemma FourBytesSplit(p0: nat, p1: nat, p2: nat, p3: nat)
    requires p0 < 256 && p1 < 256 && p2 < 256 && p3 < 256
    ensures var v := (p0 * 256 + p1) * 65536 + (p2 * 256 + p3);
      v / 16777216 == p0 && v / 65536 % 256 == p1 && v / 256 % 256 == p2 && v % 256 == p3
  {
    var hi, lo := p0 * 256 + p1, p2 * 256 + p3;
    var v := hi * 65536 + lo;
    DivMod(hi, lo, 65536);
    DivMod(p0, p1, 256);
    DivMod(p2, p3, 256);
    assert v == (hi * 256 + p2) * 256 + p3;
    DivMod(hi * 256 + p2, p3, 256);
    assert v / 256 % 256 == p2 by { DivMod(hi, p2, 256); }
    assert v == p0 * 16777216 + (p1 * 65536 + lo);
    DivMod(p0, p1 * 65536 + lo, 16777216);
  }

  /** Leading and trailing non-alphanumerics such as '#' do not affect the result. */
  lemma SurroundingsIgnored(p: string, s: string, q: string)
    requires forall i :: 0 <= i < |p| ==> NotAlnum(p[i])
    requires forall i :: 0 <= i < |q| ==> NotAlnum(q[i])
    requires s != [] && IsAlnum(s[0]) && IsAlnum(s[|s| - 1])
    ensures ParseHex(p + s + q) == ParseHex(s)
  {
    TrimSurrounded(p, s, q, NotAlnum);
    TrimNoop(s, NotAlnum);
  }

  // ---------------------------------------------------------------------
  // The inverse direction: writing a colour as "#rrggbb" or "#aarrggbb"
  // ---------------------------------------------------------------------

  function ByteToHex(n: nat): (s: string)
    requires n < 256
    ensures |s| == 2 && AllHex(s) && IsAlnum(s[0]) && IsAlnum(s[1])
  {
    [HexChar(n / 16), HexChar(n % 16)]
  }

  lemma ByteToHexValue(n: nat)
    requires n < 256
    ensures PairValue(ByteToHex(n), 0) == n
  {
  }

  function FormatRGB(r: nat, g: nat, b: nat): string
    requires r < 256 && g < 256 && b < 256
  {
    "#" + ByteToHex(r) + ByteToHex(g) + ByteToHex(b)
  }

  function FormatARGB(a: nat, r: nat, g: nat, b: nat): string
    requires a < 256 && r < 256 && g < 256 && b < 256
  {
    "#" + ByteToHex(a) + ByteToHex(r) + ByteToHex(g) + ByteToHex(b)
  }

  /** Parsing a formatted "#rrggbb" gives back the colour, fully opaque. */
  lemma ParseFormatRGB(r: nat, g: nat, b: nat)
    requires r < 256 && g < 256 && b < 256
    ensures ParseHex(FormatRGB(r, g, b)) == ARGB(255, r, g, b)
  {
    var s := ByteToHex(r) + ByteToHex(g) + ByteToHex(b);
    ThreeBytesPairs(r, g, b);
    assert FormatRGB(r, g, b) == "#" + s + "";
    SurroundingsIgnored("#", s, "");
    ParseSixDigits(s);
  }

  /** Three formatted bytes side by side are six hex digits whose pairs are the bytes. */
  lemma ThreeBytesPairs(r: nat, g: nat, b: nat)
    requires r < 256 && g < 256 && b < 256
    ensures var s := ByteToHex(r) + ByteToHex(g) + ByteToHex(b);
            && |s| == 6 && AllHex(s)
            && PairValue(s, 0) == r && PairValue(s, 2) == g && PairValue(s, 4) == b
  {
    var x, y, z := ByteToHex(r), ByteToHex(g), ByteToHex(b);
    var s := x + y + z;
    assert s[0] == x[0] && s[1] == x[1] && s[2] == y[0] && s[3] == y[1];
    assert s[4] == z[0] && s[5] == z[1];
    ByteToHexValue(r);
    ByteToHexValue(g);
    ByteToHexValue(b);
  }

  /** Four formatted bytes side by side are eight hex digits whose pairs are the bytes. */
  lemma FourBytesPairs(a: nat, r: nat, g: nat, b: nat)
    requires a < 256 && r < 256 && g < 256 && b < 256
    ensures var s := ByteToHex(a) + ByteToHex(r) + ByteToHex(g) + ByteToHex(b);
            && |s| == 8 && AllHex(s)
            && PairValue(s, 0) == a && PairValue(s, 2) == r && PairValue(s, 4) == g && PairValue(s, 6) == b
  {
    var x, y, z, w := ByteToHex(a), ByteToHex(r), ByteToHex(g), ByteToHex(b);
    var s := x + y + z + w;
    assert s[0] == x[0] && s[1] == x[1] && s[2] == y[0] && s[3] == y[1];
    assert s[4] == z[0] && s[5] == z[1] && s[6] == w[0] && s[7] == w[1];
    ByteToHexValue(a);
    ByteToHexValue(r);
    ByteToHexValue(g);
    ByteToHexValue(b);
  }

  /** Parsing a formatted "#aarrggbb" gives back all four components. */
  lemma ParseFormatARGB(a: nat, r: nat, g: nat, b: nat)
    requires a < 256 && r < 256 && g < 256 && b < 256
    ensures ParseHex(FormatARGB(a, r, g, b)) == ARGB(a, r, g, b)
  {
    var s := ByteToHex(a) + ByteToHex(r) + ByteToHex(g) + ByteToHex(b);
    FourBytesPairs(a, r, g, b);
    assert FormatARGB(a, r, g, b) == "#" + s + "";
    SurroundingsIgnored("#", s, "");
    ParseEightDigits(s);
  }
}

=== FILE: match_manager.dfy ===
/**
 The matchmaking manager of one device, as a state machine over immutable values.

 The manager's published flags and its two listener handles form `Manager`.
 Every store access of `MatchManager` is one atomic step over a `Store`: the
 candidate query, the claim transaction, the queue insertion, the cancellation
 and the message write. The manager's callbacks run later than the request
 that scheduled them, so each callback is a separate function and `Next` names
 the request a step leaves pending; other devices may change the store in
 between. The retry after a lost claim is the pending `RunQuery`; it may go on
 for ever and no termination is claimed for it.
 */
module Matchmaking {
  import opened Options
  import opened Text
  import opened AppTypes
  import opened QueueStore

  // ---------------------------------------------------------------------
  // Room identity
  // ---------------------------------------------------------------------

  /** The room's `userIds`: both participants, sorted. */
  function RoomUserIds(me: UserId, partner: UserId): seq<UserId> {
    SortedPair(me, partner)
  }

  /** The room's document id: the sorted ids joined with "_". */
  function RoomIdFor(me: UserId, partner: UserId): RoomId {
    Join(RoomUserIds(me, partner), "_")
  }

  /** Whichever participant performs the claim, the room gets the same id and members. */
  lemma RoomIdSymmetric(a: UserId, b: UserId)
    ensures RoomUserIds(a, b) == RoomUserIds(b, a)
    ensures RoomIdFor(a, b) == RoomIdFor(b, a)
    ensures RoomIdFor(a, b) == RoomUserIds(a, b)[0] + "_" + RoomUserIds(a, b)[1]
    ensures multiset(RoomUserIds(a, b)) == multiset{a, b}
  {
    SortedPairSymmetric(a, b);
    var p := RoomUserIds(a, b);
    assert p[1..] == [p[1]];
    assert Join(p[1..], "_") == p[1];
    assert Join(p, "_") == p[0] + "_" + Join(p[1..], "_");
  }

  /** Position of the first "_" in `s`, or `|s|` when there is none. */
  function FirstUnderscore(s: string): (k: nat)
    ensures k <= |s|
  {
    if s == [] || s[0] == '_' then 0 else 1 + FirstUnderscore(s[1..])
  }

  lemma {:induction false} FirstUnderscoreOfJoin(a: string, b: string)
    requires '_' !in a
    ensures FirstUnderscore(a + "_" + b) == |a|
  {
    if a != [] {
      assert (a + "_" + b)[1..] == a[1..] + "_" + b;
      FirstUnderscoreOfJoin(a[1..], b);
    }
  }

  /** Splitting at the first "_" recovers the two halves when the first has none. */
  lemma UnderscoreSplit(a: string, b: string, c: string, d: string)
    requires '_' !in a && '_' !in c
    requires a + "_" + b == c + "_" + d
    ensures a == c && b == d
  {
    FirstUnderscoreOfJoin(a, b);
    FirstUnderscoreOfJoin(c, d);
    var s := a + "_" + b;
    assert a == s[..|a|];
    assert c == s[..|c|];
    assert b == s[|a| + 1..];
    assert d == (c + "_" + d)[|c| + 1..];
  }

  /**
   For ids without "_" (generated UUID strings have none) the room id names
   exactly one unordered pair of participants.
   */
  lemma RoomIdDeterminesPair(a: UserId, b: UserId, c: UserId, d: UserId)
    requires '_' !in a && '_' !in b && '_' !in c && '_' !in d
    requires RoomIdFor(a, b) == RoomIdFor(c, d)
    ensures multiset{a, b} == multiset{c, d}
  {
    RoomIdSymmetric(a, b);
    RoomIdSymmetric(c, d);
    var p, q := RoomUserIds(a, b), RoomUserIds(c, d);
    assert p[0] == a || p[0] == b by {
      assert p[0] in multiset(p);
    }
    assert q[0] == c || q[0] == d by {
      assert q[0] in multiset(q);
    }
    UnderscoreSplit(p[0], p[1], q[0], q[1]);
    assert p == [p[0], p[1]] && q == [q[0], q[1]];
    assert p == q;
  }

  /** Every room holds two distinct participants, sorted, under the id derived from them. */
  predicate RoomWellFormed(id: RoomId, userIds: seq<UserId>) {
    |userIds| == 2 && userIds[0] != userIds[1]
    && userIds == RoomUserIds(userIds[0], userIds[1])
    && id == RoomIdFor(userIds[0], userIds[1])
  }

  predicate RoomsWellFormed(db: Store) {
    forall id :: id in db.rooms ==> RoomWellFormed(id, db.rooms[id])
  }

  /** The room a claim creates for two distinct participants is well formed. */
  lemma NewRoomWellFormed(me: UserId, partner: UserId)
    requires me != partner
    ensures RoomWellFormed(RoomIdFor(me, partner), RoomUserIds(me, partner))
  {
    var p := RoomUserIds(me, partner);
    RoomIdSymmetric(me, partner);
    assert p == [me, partner] || p == [partner, me];
    RoomIdSymmetric(p[0], p[1]);
    if p == [partner, me] {
      RoomIdSymmetric(partner, me);
    }
  }

  // ---------------------------------------------------------------------
  // The manager
  // ---------------------------------------------------------------------

  /**
   A listener handle: `Unset` is nil, `Live` a registered listener and `Removed`
   a handle whose listener was removed but which was never set back to nil.
   */
  datatype Registration = Unset | Live | Removed

  /** `handle?.remove()`: stops a live listener and keeps the handle. */
  function Remove(r: Registration): (s: Registration)
    ensures s != Live
    ensures s == Unset <==> r == Unset
  {
    if r == Live then Removed else r
  }

  /**
   The manager's state. `orphanedListeners` counts message listeners that are
   still running although no handle reaches them any more: registering a new
   message listener overwrites the handle without removing the old listener.
   */
  datatype Manager = Manager(
    userId: UserId,
    messages: seq<Message>,
    isMatching: bool,
    matchFound: bool,
    currentRoomId: Option<RoomId>,
    messageListener: Registration,
    roomListener: Registration,
    orphanedListeners: nat)

  function NewManager(userId: UserId): Manager {
    Manager(userId, [], false, false, None, Unset, Unset, 0)
  }

  /** How many message listeners are running: the orphaned ones and the one the handle holds, if live. */
  function RunningMessageListeners(m: Manager): nat {
    m.orphanedListeners + (if m.messageListener == Live then 1 else 0)
  }

  /**
   `listenToRoom`: registers a new message listener and stores it in the handle,
   without removing the listener the handle held before. A live one is orphaned.
   */
  function ListenToRoom(m: Manager): (m': Manager)
    ensures m'.messageListener == Live
    ensures m'.orphanedListeners == m.orphanedListeners + (if m.messageListener == Live then 1 else 0)
    ensures RunningMessageListeners(m') == RunningMessageListeners(m) + 1
    ensures m' == m.(messageListener := m'.messageListener, orphanedListeners := m'.orphanedListeners)
  {
    var orphaned := if m.messageListener == Live then m.orphanedListeners + 1 else m.orphanedListeners;
    m.(messageListener := Live, orphanedListeners := orphaned)
  }

  /** The request a step leaves pending. */
  datatype Next = Halt | RunQuery | RunClaim(partner: UserId) | RunAddToQueue

  datatype Step = Step(mgr: Manager, next: Next)

  datatype World = World(db: Store, mgr: Manager)

  /** A match has been recorded: a room, the found flag, and no search going on. */
  predicate MatchedInto(m: Manager, roomId: RoomId) {
    m.currentRoomId == Some(roomId) && m.matchFound && !m.isMatching
  }

  /** The search loop's guard: it only queries while matching. */
  function FindMatchRecursively(m: Manager): (n: Next)
    ensures n == Halt <==> !m.isMatching
    ensures n != Halt ==> n == RunQuery
  {
    if !m.isMatching then Halt else RunQuery
  }

  function StartMatching(m: Manager): (s: Step)
    ensures s.mgr.isMatching && !s.mgr.matchFound && s.mgr.messages == []
    ensures s.mgr.currentRoomId == m.currentRoomId && s.mgr.roomListener == m.roomListener
    ensures s.mgr.userId == m.userId && s.mgr.messageListener == m.messageListener
    ensures s.mgr.orphanedListeners == m.orphanedListeners
    ensures s.next == RunQuery
  {
    var m' := m.(isMatching := true, matchFound := false, messages := []);
    Step(m', FindMatchRecursively(m'))
  }

  // ---------------------------------------------------------------------
  // Step 1: the candidate query
  // ---------------------------------------------------------------------

  datatype QueryResult = QueryFailed | Documents(ids: seq<UserId>)

  /** `id` is the first waiting entry other than `me` in document-id order. */
  predicate IsFirstOther(db: Store, me: UserId, id: UserId) {
    id in db.waiting && id != me
    && forall x :: x in db.waiting && x != me ==> LexLe(id, x)
  }

  /**
   What the store may answer to "waiting ids other than mine, at most one":
   an error, nothing when nobody else waits, or the first other id.
   */
  predicate QueryAnswer(db: Store, me: UserId, q: QueryResult) {
    match q
    case QueryFailed => true
    case Documents(ids) =>
      if ids == [] then db.waiting.Keys <= {me} else |ids| == 1 && IsFirstOther(db, me, ids[0])
  }

  /** The query itself: scans the waiting ids for the least one that is not `me`. */
  method QueryWaiting(db: Store, me: UserId) returns (ids: seq<UserId>)
    ensures QueryAnswer(db, me, Documents(ids))
    ensures me !in ids
  {
    var pending := db.waiting.Keys - {me};
    ids := [];
    while pending != {}
      invariant pending <= db.waiting.Keys - {me}
      invariant ids == [] ==> pending == db.waiting.Keys - {me}
      invariant ids != [] ==> |ids| == 1 && ids[0] in db.waiting && ids[0] != me
      invariant ids != [] ==> forall x :: x in db.waiting && x != me && x !in pending ==> LexLe(ids[0], x)
      decreases pending
    {
      var id :| id in pending;
      if ids == [] {
        LexLeReflexive(id);
        ids := [id];
      } else if !LexLe(ids[0], id) {
        LexLeTotal(ids[0], id);
        LexLeReflexive(id);
        forall x | x in db.waiting && x != me && x !in pending && x != id
          ensures LexLe(id, x)
        {
          LexLeTransitive(id, ids[0], x);
        }
        ids := [id];
      }
      pending := pending - {id};
    }
  }

  /** The query callback: fall back to queueing on error or emptiness, else claim the first document. */
  function OnQueryResult(q: QueryResult): Next {
    match q
    case QueryFailed => RunAddToQueue
    case Documents(ids) => if ids == [] then RunAddToQueue else RunClaim(ids[0])
  }

  /**
   With an answer the store may give, the callback never tries to claim the caller
   itself, and it queues the caller exactly when the query failed or nobody else waits.
   */
  lemma QueryStepSound(db: Store, me: UserId, q: QueryResult)
    requires QueryAnswer(db, me, q)
    ensures OnQueryResult(q) != Halt && OnQueryResult(q) != RunQuery
    ensures OnQueryResult(q) == RunAddToQueue <==> q.QueryFailed? || db.waiting.Keys <= {me}
    ensures OnQueryResult(q).RunClaim? ==> OnQueryResult(q).partner != me && OnQueryResult(q).partner in db.waiting
  {
    if q.Documents? && q.ids != [] {
      assert q.ids[0] in db.waiting.Keys && q.ids[0] != me;
    }
  }

  // ---------------------------------------------------------------------
  // Step 2: the claim transaction
  // ---------------------------------------------------------------------

  /** A transaction's result: an error, `nil` (the partner is gone) or the new room's id. */
  datatype TxOutcome = TxFailed | TxNil | TxRoom(roomId: RoomId)

  datatype Claim = Claim(outcome: TxOutcome, db: Store)

  /**
   The claim transaction of `me` against `partner`'s queue entry. `fault` stands
   for a failed read or an aborted commit; a failed transaction writes nothing.
   */
  function ClaimTransaction(db: Store, me: UserId, partner: UserId, fault: bool): (c: Claim)
    ensures fault ==> c == Claim(TxFailed, db)
    ensures !fault && partner !in db.waiting ==> c == Claim(TxNil, db)
    ensures !fault && partner in db.waiting ==>
      && c.outcome == TxRoom(RoomIdFor(me, partner))
      && c.db.rooms.Keys == db.rooms.Keys + {RoomIdFor(me, partner)}
      && c.db.rooms[RoomIdFor(me, partner)] == RoomUserIds(me, partner)
      && (forall id :: id in db.rooms && id != RoomIdFor(me, partner) ==> c.db.rooms[id] == db.rooms[id])
      && partner !in c.db.waiting
      && (forall id :: id != partner ==> (id in c.db.waiting <==> id in db.waiting))
      && (forall id :: id in c.db.waiting ==> c.db.waiting[id] == db.waiting[id])
      && c.db.messages == db.messages
  {
    if fault then Claim(TxFailed, db)
    else if partner !in db.waiting then Claim(TxNil, db)
    else
      var roomId := RoomIdFor(me, partner);
      Claim(TxRoom(roomId), db.(rooms := db.rooms[roomId := RoomUserIds(me, partner)],
                                waiting := db.waiting - {partner}))
  }

  /** The transaction's completion handler on the claiming device. */
  function ClaimCompletion(m: Manager, outcome: TxOutcome): (s: Step)
    ensures outcome.TxRoom? ==> MatchedInto(s.mgr, outcome.roomId) && s.mgr.messageListener == Live && s.next == Halt
    ensures outcome.TxRoom? ==> s.mgr.roomListener == m.roomListener && s.mgr.userId == m.userId
    ensures outcome.TxRoom? ==> s.mgr.messages == m.messages
    ensures outcome.TxRoom? ==> RunningMessageListeners(s.mgr) == RunningMessageListeners(m) + 1
    ensures !outcome.TxRoom? ==> s.mgr == m && (s.next == RunQuery <==> m.isMatching)
    ensures !outcome.TxRoom? ==> s.next == RunQuery || s.next == Halt
  {
    match outcome
    case TxRoom(roomId) =>
      Step(ListenToRoom(m.(currentRoomId := Some(roomId), matchFound := true, isMatching := false)), Halt)
    case _ => Step(m, FindMatchRecursively(m))
  }

  /** A successful claim between distinct participants keeps every room well formed. */
  lemma ClaimKeepsRoomsWellFormed(db: Store, me: UserId, partner: UserId, fault: bool)
    requires RoomsWellFormed(db) && me != partner
    ensures RoomsWellFormed(ClaimTransaction(db, me, partner, fault).db)
  {
    var c := ClaimTransaction(db, me, partner, fault).db;
    if !fault && partner in db.waiting {
      var newId := RoomIdFor(me, partner);
      forall id | id in c.rooms
        ensures RoomWellFormed(id, c.rooms[id])
      {
        if id == newId {
          NewRoomWellFormed(me, partner);
        } else {
          assert c.rooms[id] == db.rooms[id];
        }
      }
    }
  }

  // ---------------------------------------------------------------------
  // Step 3: queueing and listening
  // ---------------------------------------------------------------------

  /** `setData` of the caller's queue entry; a failed write leaves the store as it was. */
  function AddToQueue(db: Store, me: UserId, nowMs: int, fault: bool): (d: Store)
    ensures fault ==> d == db
    ensures !fault ==> me in d.waiting && d.waiting[me] == nowMs
    ensures forall id :: id != me ==> (id in d.waiting <==> id in db.waiting)
    ensures forall id :: id != me && id in d.waiting ==> d.waiting[id] == db.waiting[id]
    ensures d.rooms == db.rooms && d.messages == db.messages
  {
    if fault then db else db.(waiting := db.waiting[me := nowMs])
  }

  /** Registers the room listener unless a handle is already held, live or not. */
  function ListenForMatch(m: Manager): (m': Manager)
    ensures m.roomListener == Unset ==> m' == m.(roomListener := Live)
    ensures m.roomListener != Unset ==> m' == m
  {
    if m.roomListener != Unset then m else m.(roomListener := Live)
  }

  /** The queue write's completion: give up on error, otherwise listen for a room. */
  function AddToQueueCompletion(m: Manager, ok: bool): (m': Manager)
    ensures !ok ==> m' == m.(isMatching := false)
    ensures ok ==> m' == ListenForMatch(m)
  {
    if !ok then m.(isMatching := false) else ListenForMatch(m)
  }

  /** The store reports that `roomId` holds `me`. */
  predicate RoomAddedFor(db: Store, me: UserId, roomId: RoomId) {
    roomId in db.rooms && me in db.rooms[roomId]
  }

  /**
   The room listener's callback for an added room. Only a live listener is
   called; it records the match and drops its own handle.
   */
  function OnRoomAdded(m: Manager, db: Store, roomId: RoomId): (m': Manager)
    ensures m.roomListener == Live && RoomAddedFor(db, m.userId, roomId) ==>
      MatchedInto(m', roomId) && m'.roomListener == Unset && m'.messageListener == Live
    ensures !(m.roomListener == Live && RoomAddedFor(db, m.userId, roomId)) ==> m' == m
    ensures m'.userId == m.userId && m'.messages == m.messages
    ensures m.roomListener == Live && RoomAddedFor(db, m.userId, roomId) ==>
      RunningMessageListeners(m') == RunningMessageListeners(m) + 1
  {
    if m.roomListener == Live && RoomAddedFor(db, m.userId, roomId) then
      ListenToRoom(m.(currentRoomId := Some(roomId), matchFound := true, isMatching := false, roomListener := Unset))
    else m
  }

  // ---------------------------------------------------------------------
  // Cancelling, sending and leaving
  // ---------------------------------------------------------------------

  /**
   Stops searching, removes the room listener (keeping its handle) and deletes the
   queue entry. The delete has no completion handler: `fault` stands for a delete
   that fails unseen, which leaves the entry in the queue while the flags are
   cleared all the same.
   */
  function CancelMatching(db: Store, m: Manager, fault: bool): (w: World)
    ensures !w.mgr.isMatching && w.mgr.roomListener != Live
    ensures m.roomListener != Unset ==> w.mgr.roomListener != Unset
    ensures m.roomListener == Unset ==> w.mgr.roomListener == Unset
    ensures !fault ==> m.userId !in w.db.waiting
    ensures fault ==> w.db == db
    ensures forall id :: id != m.userId ==> (id in w.db.waiting <==> id in db.waiting)
    ensures forall id :: id != m.userId && id in w.db.waiting ==> w.db.waiting[id] == db.waiting[id]
    ensures w.db.rooms == db.rooms && w.db.messages == db.messages
    ensures w.mgr.currentRoomId == m.currentRoomId && w.mgr.matchFound == m.matchFound
    ensures w.mgr.messages == m.messages && w.mgr.messageListener == m.messageListener && w.mgr.userId == m.userId
    ensures w.mgr.orphanedListeners == m.orphanedListeners
  {
    World(if fault then db else db.(waiting := db.waiting - {m.userId}),
          m.(isMatching := false, roomListener := Remove(m.roomListener)))
  }

  /**
   Writes a message to the current room; does nothing without one. The write has
   no completion handler: `fault` stands for a write that fails unseen.
   */
  function SendMessage(w: World, text: string, now: real, fault: bool): (w': World)
    ensures w.mgr.currentRoomId.None? || fault ==> w' == w
    ensures w'.mgr == w.mgr && w'.db.waiting == w.db.waiting && w'.db.rooms == w.db.rooms
    ensures w.mgr.currentRoomId.Some? && !fault ==>
      var id := w.mgr.currentRoomId.value;
      && id in w'.db.messages
      && w'.db.messages[id] == (if id in w.db.messages then w.db.messages[id] else []) + [Message(None, w.mgr.userId, text, now)]
      && (forall other :: other != id ==> (other in w'.db.messages <==> other in w.db.messages))
      && (forall other :: other != id && other in w.db.messages ==> w'.db.messages[other] == w.db.messages[other])
  {
    match w.mgr.currentRoomId
    case None => w
    case Some(id) =>
      if fault then w
      else
        var log := if id in w.db.messages then w.db.messages[id] else [];
        w.(db := w.db.(messages := w.db.messages[id := log + [Message(None, w.mgr.userId, text, now)]]))
  }

  /** Leaves the room: both held listeners removed, messages and the room id cleared; orphaned listeners run on. */
  function StopListening(m: Manager): (m': Manager)
    ensures m'.messages == [] && m'.currentRoomId == None
    ensures m'.messageListener != Live && m'.roomListener != Live
    ensures m'.messageListener == Remove(m.messageListener) && m'.roomListener == Remove(m.roomListener)
    ensures m'.isMatching == m.isMatching && m'.matchFound == m.matchFound && m'.userId == m.userId
    ensures m'.orphanedListeners == m.orphanedListeners && RunningMessageListeners(m') == m.orphanedListeners
  {
    m.(messageListener := Remove(m.messageListener), roomListener := Remove(m.roomListener),
       messages := [], currentRoomId := None)
  }

  /** After leaving the room, sending writes nothing, whether or not the write would have failed. */
  lemma LeftRoomSendsNothing(db: Store, m: Manager, text: string, now: real, fault: bool)
    ensures var w := World(db, StopListening(m));
            SendMessage(w, text, now, fault) == w
  {
  }
}

=== FILE: match_properties.dfy ===
/**
 Properties of the matchmaking steps that span several steps or several devices:
 exclusivity of claims, what cancelling does and does not stop, and the
 pairing of two devices through the queue and the room listener.
 */
module MatchProperties {
  import opened Options
  import opened Text
  import opened QueueStore
  import opened Matchmaking

  // ---------------------------------------------------------------------
  // Exclusivity
  // ---------------------------------------------------------------------

  /** One claim transaction by `claimer`; `fault` marks a transaction that errors. */
  datatype Attempt = Attempt(claimer: UserId, fault: bool)

  datatype Claims = Claims(outcomes: seq<TxOutcome>, db: Store)

  /** Claim transactions against the same queue entry, committed one after the other. */
  function RunClaims(db: Store, attempts: seq<Attempt>, partner: UserId): (r: Claims)
    ensures |r.outcomes| == |attempts|
    decreases |attempts|
  {
    if attempts == [] then Claims([], db)
    else
      var c := ClaimTransaction(db, attempts[0].claimer, partner, attempts[0].fault);
      var rest := RunClaims(c.db, attempts[1..], partner);
      Claims([c.outcome] + rest.outcomes, rest.db)
  }

  /** Number of transactions that created a room. */
  function Wins(outcomes: seq<TxOutcome>): nat {
    if outcomes == [] then 0 else (if outcomes[0].TxRoom? then 1 else 0) + Wins(outcomes[1..])
  }

  predicate SomeSucceeds(attempts: seq<Attempt>) {
    exists i :: 0 <= i < |attempts| && !attempts[i].fault
  }

  /**
   However many devices race for one queue entry, at most one claim creates a
   room; exactly one does when the entry existed and some transaction went
   through; the entry is gone afterwards exactly when it was gone before or
   somebody won it.
   */
  lemma {:induction false} AtMostOneWinner(db: Store, attempts: seq<Attempt>, partner: UserId)
    ensures Wins(RunClaims(db, attempts, partner).outcomes) <= 1
    ensures Wins(RunClaims(db, attempts, partner).outcomes) == 1 <==> partner in db.waiting && SomeSucceeds(attempts)
    ensures partner !in db.waiting ==> Wins(RunClaims(db, attempts, partner).outcomes) == 0
    ensures partner in RunClaims(db, attempts, partner).db.waiting <==>
      partner in db.waiting && Wins(RunClaims(db, attempts, partner).outcomes) == 0
    decreases |attempts|
  {
    if attempts != [] {
      var c := ClaimTransaction(db, attempts[0].claimer, partner, attempts[0].fault);
      var r := RunClaims(db, attempts, partner);
      var rest := RunClaims(c.db, attempts[1..], partner);
      AtMostOneWinner(c.db, attempts[1..], partner);
      assert r.outcomes[1..] == rest.outcomes;
      assert SomeSucceeds(attempts) <==> !attempts[0].fault || SomeSucceeds(attempts[1..]) by {
        if SomeSucceeds(attempts[1..]) {
          var i :| 0 <= i < |attempts[1..]| && !attempts[1..][i].fault;
          assert !attempts[i + 1].fault;
        }
        if SomeSucceeds(attempts) && attempts[0].fault {
          var i :| 0 <= i < |attempts| && !attempts[i].fault;
          assert !attempts[1..][i - 1].fault;
        }
      }
    }
  }

  /**
   Of two devices claiming the same entry one after the other, the first wins
   and the second sees the entry gone, changes nothing and searches again.
   */
  lemma SecondClaimantRetries(db: Store, a: UserId, b: UserId, partner: UserId, mb: Manager)
    requires partner in db.waiting
    ensures var c1 := ClaimTransaction(db, a, partner, false);
            var c2 := ClaimTransaction(c1.db, b, partner, false);
            && c1.outcome == TxRoom(RoomIdFor(a, partner))
            && c2 == Claim(TxNil, c1.db)
            && ClaimCompletion(mb, c2.outcome) == Step(mb, if mb.isMatching then RunQuery else Halt)
  {
  }

  // ---------------------------------------------------------------------
  // Cancelling
  // ---------------------------------------------------------------------

  /**
   After cancelling, the search loop stops at its guard, a lost or failed claim
   does not resume it, and without a room sending does nothing. A delete that
   went through has removed the caller's queue entry.
   */
  lemma AfterCancel(db: Store, m: Manager, fault: bool, outcome: TxOutcome, text: string, now: real, sendFault: bool)
    ensures var w := CancelMatching(db, m, fault);
            && !w.mgr.isMatching
            && (!fault ==> m.userId !in w.db.waiting)
            && FindMatchRecursively(w.mgr) == Halt
            && (!outcome.TxRoom? ==> ClaimCompletion(w.mgr, outcome).next == Halt)
            && (w.mgr.currentRoomId == None ==> SendMessage(w, text, now, sendFault) == w)
  {
  }

  /** A claim that starts after the partner's cancel went through cannot put the partner in a room. */
  lemma CancelBeforeClaim(db: Store, ma: Manager, b: UserId, fault: bool)
    ensures var w := CancelMatching(db, ma, false);
            var c := ClaimTransaction(w.db, b, ma.userId, fault);
            !c.outcome.TxRoom? && c.db == w.db
  {
  }

  /**
   A cancel whose delete failed unseen leaves the entry claimable: another device
   puts the cancelled user in a room, and since the room listener is gone the
   cancelled device never learns of it.
   */
  lemma FailedCancelLeavesEntryClaimable(db: Store, ma: Manager, b: UserId)
    requires ma.userId in db.waiting && b != ma.userId
    ensures var w := CancelMatching(db, ma, true);
            var c := ClaimTransaction(w.db, b, ma.userId, false);
            var roomId := RoomIdFor(b, ma.userId);
            && c.outcome == TxRoom(roomId)
            && RoomAddedFor(c.db, ma.userId, roomId)
            && OnRoomAdded(w.mgr, c.db, roomId) == w.mgr
            && !w.mgr.isMatching && w.mgr.currentRoomId == ma.currentRoomId
  {
    assert ma.userId in RoomUserIds(b, ma.userId) by {
      RoomIdSymmetric(b, ma.userId);
      assert ma.userId in multiset(RoomUserIds(b, ma.userId));
    }
  }

  /**
   Cancelling does not reach callbacks already in flight: a claim that commits
   after its own device cancelled still records the match, and a queue write
   that completes after the cancel puts the device back in the queue.
   */
  lemma CancelDoesNotStopInFlightWork(db: Store, m: Manager, fault: bool, roomId: RoomId, nowMs: int)
    ensures var w := CancelMatching(db, m, fault);
            && MatchedInto(ClaimCompletion(w.mgr, TxRoom(roomId)).mgr, roomId)
            && m.userId in AddToQueue(w.db, m.userId, nowMs, false).waiting
            && !w.mgr.isMatching
  {
  }

  /**
   `cancelMatching` removes the room listener but keeps its handle, so the
   guard of `listenForMatch` refuses to register a new one on the next search:
   a device that cancelled once can queue again but never hears of a room.
   */
  lemma CancelledListenerBlocksRematch(db: Store, m: Manager, fault: bool)
    requires m.roomListener == Live
    ensures var m1 := CancelMatching(db, m, fault).mgr;
            var m2 := StartMatching(m1).mgr;
            var m3 := AddToQueueCompletion(m2, true);
            && m3.roomListener == Removed && m3.isMatching
            && forall d: Store, id: RoomId :: OnRoomAdded(m3, d, id) == m3
  {
  }

  // ---------------------------------------------------------------------
  // Two devices
  // ---------------------------------------------------------------------

  /**
   Device `a` finds nobody and queues; device `b` then finds `a`, claims it and
   enters the room; `a`'s listener sees the room. Both end in the same room,
   whose id depends only on the pair, and the queue is empty again.
   */
  lemma PairingEndToEnd(a: UserId, b: UserId, t1: int)
    requires a != b
    ensures
      var qa := Documents([]);
      var sa := StartMatching(NewManager(a));
      var db1 := AddToQueue(EmptyStore, a, t1, false);
      var ma := AddToQueueCompletion(sa.mgr, true);
      var qb := Documents([a]);
      var sb := StartMatching(NewManager(b));
      var claim := ClaimTransaction(db1, b, a, false);
      var mb := ClaimCompletion(sb.mgr, claim.outcome).mgr;
      var ma' := OnRoomAdded(ma, claim.db, RoomIdFor(a, b));
      && QueryAnswer(EmptyStore, a, qa) && OnQueryResult(qa) == RunAddToQueue
      && QueryAnswer(db1, b, qb) && OnQueryResult(qb) == RunClaim(a)
      && MatchedInto(mb, RoomIdFor(a, b))
      && MatchedInto(ma', RoomIdFor(a, b))
      && claim.db.waiting == map[]
      && claim.db.rooms == map[RoomIdFor(a, b) := RoomUserIds(a, b)]
  {
    RoomIdSymmetric(a, b);
    LexLeReflexive(a);
    var db1 := AddToQueue(EmptyStore, a, t1, false);
    assert db1.waiting.Keys == {a};
    var claim := ClaimTransaction(db1, b, a, false);
    assert a in RoomUserIds(a, b) by {
      assert a in multiset(RoomUserIds(a, b));
    }
  }

  /**
   The lost notification end to end: `a` queues and listens, cancels, searches
   again and queues; `b` claims `a`. The room with `a` exists and `a`'s entry is
   gone, yet `a` stays searching with no room.
   */
  lemma CancelThenRetryMissesMatch(a: UserId, b: UserId, t1: int, t2: int)
    requires a != b
    ensures
      var ma1 := AddToQueueCompletion(StartMatching(NewManager(a)).mgr, true);
      var db1 := AddToQueue(EmptyStore, a, t1, false);
      var w := CancelMatching(db1, ma1, false);
      var ma2 := AddToQueueCompletion(StartMatching(w.mgr).mgr, true);
      var db2 := AddToQueue(w.db, a, t2, false);
      var claim := ClaimTransaction(db2, b, a, false);
      var ma3 := OnRoomAdded(ma2, claim.db, RoomIdFor(a, b));
      && QueryAnswer(w.db, a, Documents([]))
      && QueryAnswer(db2, b, Documents([a]))
      && claim.outcome == TxRoom(RoomIdFor(a, b))
      && RoomAddedFor(claim.db, a, RoomIdFor(a, b))
      && a !in claim.db.waiting
      && ma3.isMatching && !ma3.matchFound && ma3.currentRoomId == None
  {
    RoomIdSymmetric(a, b);
    LexLeReflexive(a);
    var db1 := AddToQueue(EmptyStore, a, t1, false);
    var ma1 := AddToQueueCompletion(StartMatching(NewManager(a)).mgr, true);
    var w := CancelMatching(db1, ma1, false);
    assert w.db.waiting == map[];
    var db2 := AddToQueue(w.db, a, t2, false);
    assert db2.waiting.Keys == {a};
    assert a in RoomUserIds(a, b) by {
      assert a in multiset(RoomUserIds(a, b));
    }
  }

  /**
   Leaving a chat without `stopListening` and matching again leaks the first
   room's message listener: the second match overwrites its live handle, and a
   later `stopListening` stops only the second one.
   */
  lemma SecondMatchOrphansListener(a: UserId, r1: RoomId, r2: RoomId)
    ensures
      var m1 := ClaimCompletion(StartMatching(NewManager(a)).mgr, TxRoom(r1)).mgr;
      var m2 := ClaimCompletion(StartMatching(m1).mgr, TxRoom(r2)).mgr;
      var m3 := StopListening(m2);
      && RunningMessageListeners(m1) == 1
      && m2.orphanedListeners == 1 && RunningMessageListeners(m2) == 2
      && m3.messageListener != Live && RunningMessageListeners(m3) == 1
  {
  }
}

=== FILE: options.dfy ===
/** Swift optionals (`T?`) as a datatype. */
module Options {

  datatype Option<+T> = None | Some(value: T) {

    /** The `?? default` operator of Swift. */
    function GetOr(default: T): T {
      match this
      case Some(v) => v
      case None => default
    }
  }
}

=== FILE: queue_store.dfy ===
/**
 The shared document store, seen as plain values: the `waiting_queue`
 collection (one entry per searching participant, keyed by its id and holding
 the entry's `createdAt` in milliseconds), the `rooms` collection (room id to
 the room's `userIds`) and each room's `messages` sub-collection.
 */
module QueueStore {
  import opened AppTypes

  type UserId = string
  type RoomId = string

  datatype Store = Store(
    waiting: map<UserId, int>,
    rooms: map<RoomId, seq<UserId>>,
    messages: map<RoomId, seq<Message>>)

  const EmptyStore: Store := Store(map[], map[], map[])
}

=== FILE: reaper.dfy ===
/**
 The scheduled clean-up job: every run deletes the waiting entries whose
 `createdAt` lies strictly before "ten minutes ago", in one batch, and reports
 how many it deleted. Rooms and messages are not touched. The query or the
 batch commit may be rejected; the run then deletes nothing and reports nothing.
 */
module Reaper {
  import opened QueueStore

  /** Ten minutes, in milliseconds. */
  const TtlMs: int := 10 * 60 * 1000

  /** The instant before which an entry counts as stale. */
  function Cutoff(nowMs: int): (c: int)
    ensures nowMs - c == 600000
  {
    nowMs - TtlMs
  }

  /** The ids the query `createdAt < cutoff` selects. */
  function StaleIds(waiting: map<UserId, int>, cutoff: int): set<UserId> {
    set id | id in waiting && waiting[id] < cutoff
  }

  datatype Sweep = Sweep(db: Store, deleted: nat)

  /** One run of the job; `fault` stands for a rejected query or batch commit. */
  function CleanupOldData(db: Store, nowMs: int, fault: bool): (r: Sweep)
    ensures fault ==> r.db == db && r.deleted == 0
    ensures !fault ==> forall id :: id in db.waiting && db.waiting[id] < nowMs - 600000 ==> id !in r.db.waiting
    ensures forall id :: id in db.waiting && db.waiting[id] >= nowMs - 600000 ==>
      id in r.db.waiting && r.db.waiting[id] == db.waiting[id]
    ensures r.db.waiting.Keys <= db.waiting.Keys
    ensures r.db.rooms == db.rooms && r.db.messages == db.messages
    ensures r.deleted == |db.waiting| - |r.db.waiting|
  {
    if fault then Sweep(db, 0) else
    var stale := StaleIds(db.waiting, Cutoff(nowMs));
    var kept := map id | id in db.waiting && db.waiting[id] >= Cutoff(nowMs) :: db.waiting[id];
    assert kept.Keys + stale == db.waiting.Keys;
    assert kept.Keys * stale == {};
    Sweep(db.(waiting := kept), |stale|)
  }

  /** A second sweep at the same instant finds nothing more to delete. */
  lemma CleanupIdempotent(db: Store, nowMs: int)
    ensures CleanupOldData(CleanupOldData(db, nowMs, false).db, nowMs, false).db == CleanupOldData(db, nowMs, false).db
    ensures CleanupOldData(CleanupOldData(db, nowMs, false).db, nowMs, false).deleted == 0
  {
    var once := CleanupOldData(db, nowMs, false).db;
    var twice := CleanupOldData(once, nowMs, false).db;
    assert twice.waiting == once.waiting;
  }

  /** A rejected run is harmless: the next run at the same instant does what it would have done. */
  lemma FailedRunIsHarmless(db: Store, nowMs: int)
    ensures CleanupOldData(CleanupOldData(db, nowMs, true).db, nowMs, false) == CleanupOldData(db, nowMs, false)
  {
  }

  /** An entry younger than ten minutes, however slightly, survives a sweep. */
  lemma EntryAtCutoffSurvives(db: Store, id: UserId, nowMs: int)
    requires id in db.waiting && db.waiting[id] == nowMs - 600000
    ensures forall fault :: id in CleanupOldData(db, nowMs, fault).db.waiting
  {
  }
}

=== FILE: text.dfy ===
/**
 Character classes and string helpers shared by the views and the matchmaker:
 Foundation's `trimmingCharacters(in:)`, Swift's `<` on strings,
 `joined(separator:)` and decimal string interpolation of an integer.
 */
module Text {

  /** `CharacterSet.whitespaces`: horizontal tab plus the Unicode space separators (Zs). */
  predicate IsWhitespace(c: char) {
    c == '\t' || c == ' ' || c == '\U{A0}' || c == '\U{1680}'
    || ('\U{2000}' <= c <= '\U{200A}')
    || c == '\U{202F}' || c == '\U{205F}' || c == '\U{3000}'
  }

  predicate IsDigit(c: char) {
    '0' <= c <= '9'
  }

  /** `CharacterSet.alphanumerics`, restricted to ASCII. */
  predicate IsAlnum(c: char) {
    IsDigit(c) || 'a' <= c <= 'z' || 'A' <= c <= 'Z'
  }

  predicate NotAlnum(c: char) {
    !IsAlnum(c)
  }

  /** Number of leading characters of `s` that `strip` accepts. */
  function LeadingCount(s: string, strip: char -> bool): (k: nat)
    ensures k <= |s|
    ensures forall i :: 0 <= i < k ==> strip(s[i])
    ensures k < |s| ==> !strip(s[k])
  {
    if |s| == 0 || !strip(s[0]) then 0 else 1 + LeadingCount(s[1..], strip)
  }

  /** Number of trailing characters of `s` that `strip` accepts. */
  function TrailingCount(s: string, strip: char -> bool): (k: nat)
    ensures k <= |s|
    ensures forall i :: |s| - k <= i < |s| ==> strip(s[i])
    ensures k < |s| ==> !strip(s[|s| - k - 1])
  {
    if |s| == 0 || !strip(s[|s| - 1]) then 0 else 1 + TrailingCount(s[..|s| - 1], strip)
  }

  /**
   `s.trimmingCharacters(in: set)`: drops the longest prefix and the longest
   suffix made of characters of the set.
   */
  function Trim(s: string, strip: char -> bool): (r: string)
    ensures LeadingCount(s, strip) + |r| <= |s|
    ensures r == s[LeadingCount(s, strip)..LeadingCount(s, strip) + |r|]
    ensures r != [] ==> !strip(r[0]) && !strip(r[|r| - 1])
    ensures forall i :: 0 <= i < LeadingCount(s, strip) ==> strip(s[i])
    ensures forall i :: LeadingCount(s, strip) + |r| <= i < |s| ==> strip(s[i])
  {
    var t := s[LeadingCount(s, strip)..];
    t[..|t| - TrailingCount(t, strip)]
  }

  /** A string is blank when every character is whitespace. */
  predicate IsBlank(s: string) {
    forall i :: 0 <= i < |s| ==> IsWhitespace(s[i])
  }

  /** Trimming yields the empty string exactly when every character is stripped. */
  lemma TrimEmptyIff(s: string, strip: char -> bool)
    ensures Trim(s, strip) == [] <==> forall i :: 0 <= i < |s| ==> strip(s[i])
  {
  }

  /** The guard `s.trimmingCharacters(in: .whitespaces).isEmpty` means "blank". */
  lemma TrimWhitespaceEmptyIffBlank(s: string)
    ensures Trim(s, IsWhitespace) == [] <==> IsBlank(s)
  {
    TrimEmptyIff(s, IsWhitespace);
  }

  /** A string that neither starts nor ends with a stripped character is left as is. */
  lemma TrimNoop(s: string, strip: char -> bool)
    requires s != [] ==> !strip(s[0]) && !strip(s[|s| - 1])
    ensures Trim(s, strip) == s
  {
  }

  /**
   A string whose ends are kept comes out of its stripped surroundings whole:
   trimming `p + s + q` gives `s` when `p` and `q` consist of stripped characters.
   */
  lemma TrimSurrounded(p: string, s: string, q: string, strip: char -> bool)
    requires forall i :: 0 <= i < |p| ==> strip(p[i])
    requires forall i :: 0 <= i < |q| ==> strip(q[i])
    requires s != [] && !strip(s[0]) && !strip(s[|s| - 1])
    ensures Trim(p + s + q, strip) == s
  {
    var w := p + s + q;
    assert forall i :: 0 <= i < |p| ==> strip(w[i]) by {
      forall i | 0 <= i < |p| ensures w[i] == p[i] { }
    }
    assert forall i :: |p| + |s| <= i < |w| ==> strip(w[i]) by {
      forall i | |p| + |s| <= i < |w| ensures w[i] == q[i - |p| - |s|] { }
    }
    assert !strip(w[|p|]) && !strip(w[|p| + |s| - 1]);
    var k := LeadingCount(w, strip);
    assert k == |p|;
    var r := Trim(w, strip);
    assert |r| == |s|;
    assert w[|p|..|p| + |s|] == s;
  }

  // ---------------------------------------------------------------------
  // Ordering of strings
  // ---------------------------------------------------------------------

  /** Lexicographic order on strings by character code (Swift's `<=` on ASCII identifiers). */
  predicate LexLe(a: string, b: string) {
    |a| == 0 || (|b| > 0 && (a[0] < b[0] || (a[0] == b[0] && LexLe(a[1..], b[1..]))))
  }

  lemma LexLeReflexive(a: string)
    ensures LexLe(a, a)
  {
  }

  lemma {:induction false} LexLeTotal(a: string, b: string)
    ensures LexLe(a, b) || LexLe(b, a)
  {
    if |a| > 0 && |b| > 0 && a[0] == b[0] {
      LexLeTotal(a[1..], b[1..]);
    }
  }

  lemma {:induction false} LexLeAntisymmetric(a: string, b: string)
    requires LexLe(a, b) && LexLe(b, a)
    ensures a == b
  {
    if |a| > 0 {
      LexLeAntisymmetric(a[1..], b[1..]);
      assert a == [a[0]] + a[1..];
      assert b == [b[0]] + b[1..];
    }
  }

  lemma {:induction false} LexLeTransitive(a: string, b: string, c: string)
    requires LexLe(a, b) && LexLe(b, c)
    ensures LexLe(a, c)
  {
    if |a| > 0 && a[0] == b[0] && b[0] == c[0] {
      LexLeTransitive(a[1..], b[1..], c[1..]);
    }
  }

  /** `[x, y].sorted()`: the two strings in ascending order. */
  function SortedPair(x: string, y: string): (r: seq<string>)
    ensures |r| == 2 && LexLe(r[0], r[1])
    ensures multiset(r) == multiset{x, y}
  {
    LexLeTotal(x, y);
    if LexLe(x, y) then [x, y] else [y, x]
  }

  /** Sorting a pair does not depend on the order in which it was given. */
  lemma SortedPairSymmetric(x: string, y: string)
    ensures SortedPair(x, y) == SortedPair(y, x)
  {
    LexLeTotal(x, y);
    if LexLe(x, y) && LexLe(y, x) {
      LexLeAntisymmetric(x, y);
    }
  }

  /** `xs.joined(separator: sep)`. */
  function Join(xs: seq<string>, sep: string): string {
    if |xs| == 0 then [] else if |xs| == 1 then xs[0] else xs[0] + sep + Join(xs[1..], sep)
  }

  // ---------------------------------------------------------------------
  // Decimal rendering of a natural number (string interpolation "\(n)")
  // ---------------------------------------------------------------------

  function DigitChar(d: nat): (c: char)
    requires d < 10
    ensures IsDigit(c)
  {
    ['0', '1', '2', '3', '4', '5', '6', '7', '8', '9'][d]
  }

  function DigitValue(c: char): (d: nat)
    requires IsDigit(c)
    ensures d < 10
  {
    (c as int - '0' as int) as nat
  }

  lemma DigitRoundTrip(d: nat)
    requires d < 10
    ensures DigitValue(DigitChar(d)) == d
  {
  }

  function NatToString(n: nat): (s: string)
    ensures |s| > 0
    ensures forall i :: 0 <= i < |s| ==> IsDigit(s[i])
    ensures |s| > 1 ==> s[0] != '0'
  {
    if n < 10 then [DigitChar(n)] else NatToString(n / 10) + [DigitChar(n % 10)]
  }

  /** Reads a string of decimal digits back as a number. */
  function ParseNat(s: string): nat
    requires forall i :: 0 <= i < |s| ==> IsDigit(s[i])
  {
    if s == [] then 0 else ParseNat(s[..|s| - 1]) * 10 + DigitValue(s[|s| - 1])
  }

  lemma {:induction false} NatToStringRoundTrip(n: nat)
    ensures ParseNat(NatToString(n)) == n
  {
    var s := NatToString(n);
    if n < 10 {
      assert s[..0] == [];
      DigitRoundTrip(n);
    } else {
      assert s[..|s| - 1] == NatToString(n / 10);
      NatToStringRoundTrip(n / 10);
      DigitRoundTrip(n % 10);
    }
  }

  /** Distinct numbers render as distinct strings. */
  lemma NatToStringInjective(m: nat, n: nat)
    requires NatToString(m) == NatToString(n)
    ensures m == n
  {
    NatToStringRoundTrip(m);
    NatToStringRoundTrip(n);
  }
}
